=== FILE: README.md ===
# Complaint tracker front end: a Dafny model of its decision logic

The front end of a complaint-tracking system ("ResolveIT") is a set of React components. Users file
complaints and feedback. Employees update the status of the complaints assigned to them. Admins
assign, comment on, escalate and report on complaints. Almost everything the components do is
fetch JSON and render it. What this project models is the decision logic inside them:

- the identity helpers that read the user id out of the stored JWT;
- the login's role routing and the session keys it stores, and the employee logout;
- the guards and state resets of every form: change status, update status, assign, comment,
  escalate, feedback and complaint;
- the aggregations: status counters with their case quirks, category grouping, average resolution
  time, and truncation to the first 5 or 6 items;
- the small view-state machines: the feedback carousel, the FAQ accordion, the comment timeline,
  the report list's show-more;
- the strings the components build: the export link, the "time ago" badge, the two-digit FAQ number.

Each component is one module holding a class. Its `useState` fields are the class's fields and its
handlers are methods. Each network call is a parameter of the handler: a `bool` for success, or an
`Option` holding the response data, `None` meaning the request failed. `localStorage` is a
`map<string, string>`, wrapped in the `Storage.LocalStorage` class where a handler writes to it.
Toasts and alerts are returned as a `Notice` value. Several components repeat the same pieces, and
these are defined once:

- `Records`: the complaint records and the per-category grouping;
- `StatusDisplay`: the case-insensitive colour and icon switches;
- `JsText`: JavaScript's trim, ASCII case mapping, String(n) and padStart;
- `JsValues`: JavaScript values, property access and String(v);
- `Base64`: `atob`, the forgiving-base64 decode of the WHATWG Infra standard.

Modules:

| module | models |
|---|---|
| `JwtUtils` | jwtUtils.js: `getUserIdFromToken` |
| `Complaints` | Complaints.jsx: `decodeJWT`, the form state and the submitted record |
| `Login` | Login.jsx |
| `ChangeStatus`, `UpdateStatus`, `AssignedComplaints`, `EscalateComplaints`, `Feedback` | the form screens of the same names |
| `Statistics`, `Stat`, `ComplaintStatus`, `RecentComplaints`, `ReportsExport` | the list and statistics screens |
| `EmployeePanel`, `FeedbackLanding`, `Faq` | the panel menu, the carousel and the accordion |

Notable behaviour the model states as written:

- `getUserIdFromToken` throws on a malformed token, while the complaint form's `decodeJWT` turns
  every failure into null (`Complaints.TokenReadersCompared`).
- A token whose payload segment uses the URL-safe base64 characters `-` or `_` makes
  `getUserIdFromToken` throw, because `atob` only accepts the standard alphabet
  (`JwtUtils.UrlSafeSegmentThrows`). JWTs are encoded this way (section 3 of RFC 7519).
- The employee logout removes only the username and the password. The token stays, and the user id
  can still be read from it (`EmployeePanel.LogoutKeepsToken`).
- The escalate button compares the status exactly, while the colour lookup ignores case
  (`EscalateComplaints.EscalatedSpellingMatters`).
- The update dialog's own colour lookup is case-sensitive (`UpdateStatus.ColourLookupIsCaseSensitive`).
- The export link always uses the `export/csv` path, even for PDF (`ReportsExport.FormatsShareThePath`).
- The feedback form accepts a description made only of spaces, because it does not trim.
- An anonymous complaint still carries the user id (`Complaints.AnonymousComplaintCarriesUserId`).

## Model

| member | source | states |
|---|---|---|
| `Base64.Atob` | jwtUtils.js:6 | `atob`: ASCII whitespace is removed; a length divisible by 4 may end in one or two `=`; a length of 1 modulo 4 or a character outside the standard alphabet fails; otherwise every 4 characters give 3 bytes |
| `Base64.AtobEncode` | jwtUtils.js:6 | decoding the unpadded standard encoding of any byte string gives back exactly those bytes |
| `Base64.AtobRejectsForeignChar` | jwtUtils.js:6 | any string containing a character that is neither whitespace, `=` nor in the standard alphabet (such as `-` or `_`) fails to decode |
| `Base64.AtobRejectsLengthOneModFour` | jwtUtils.js:6 | text without white space whose length is one more than a multiple of four fails to decode, whatever its characters |
| `Base64.AtobOfUndefinedThrows` | jwtUtils.js:6 | decoding the text "undefined" (what `split(".")[1]` yields for a dotless token) fails |
| `JsText.Trim` | ChangeStatus.jsx:56 | the result is the slice of the input that starts after the leading whitespace run, neither starts nor ends with whitespace, and is followed only by whitespace |
| `JsText.BlankIffAllSpace` | ChangeStatus.jsx:56 | `s.trim()` is empty exactly when every character of `s` is JavaScript whitespace |
| `JsText.DigitsValueOfNatToString` | FAQ.jsx:65 | reading the decimal digits of String(n) back gives n |
| `JsText.PadStart` | FAQ.jsx:65 | the result is at least the requested length, ends with the input and is filled with the pad character in front |
| `JsValues.GetProperty` | jwtUtils.js:7 | reading a property of null or undefined throws a TypeError; otherwise the result is the object's own field, or undefined |
| `JsValues.OptionalProperty` | Complaints.jsx:28 | `?.` gives undefined for null or undefined and the plain property read otherwise |
| `JsValues.ToJsString` | Login.jsx:31-32 | String(v) as `setItem` stores it: a string unchanged, "undefined", "null", "true"/"false", the decimal number, "[object Object]", and an array as its elements' join |
| `JsValues.JoinItems` | Login.jsx:31-32 | an array of one element that is not null or undefined converts to that element's own text |
| `JsValues.JoinItemsShape` | Login.jsx:31-32 | an array's text starts with its first element's text (empty for null and undefined), followed by a comma exactly when more elements follow; with no commas inside the elements the text holds exactly one comma fewer than there are elements |
| `JsValues.CommaCountAppend` | Login.jsx:31-32 | the commas of two joined texts are the commas of each |
| `Storage.LocalStorage.GetItem` | jwtUtils.js:3 | the stored string, or None exactly when the key is absent |
| `Storage.LocalStorage.SetItem` | Login.jsx:29-32 | the key now holds the value, and every other key is unchanged |
| `Storage.LocalStorage.RemoveItem` | EmployeePanel.jsx:17-18 | only that key is removed |
| `JwtUtils.SecondSegment` | jwtUtils.js:6 | `split(".")[1]`: absent exactly when the token has no dot; otherwise it contains no dot |
| `JwtUtils.SecondSegmentOfJoined` | jwtUtils.js:6 | for `header.payload.signature` with a dot-free header and payload, the second segment is the payload |
| `JwtUtils.DecodePayload` | jwtUtils.js:6 | `JSON.parse(atob(segment))` can only throw the decoder's InvalidCharacterError or the parser's SyntaxError |
| `JwtUtils.GetUserIdFromToken` | jwtUtils.js:2-8 | null when no token (or an empty one) is stored; otherwise the `userId` of the decoded payload, and whatever decoding, parsing or the property read throws is thrown on |
| `JwtUtils.UserIdOfWellFormedToken` | jwtUtils.js:6-7 | a token whose middle segment encodes a JSON object yields exactly that object's `userId` |
| `JwtUtils.MissingUserIdIsUndefined` | jwtUtils.js:7 | a payload without `userId` yields undefined, not null |
| `JwtUtils.DotlessTokenThrows` | jwtUtils.js:6 | a stored token without a dot makes the helper throw, whatever the JSON parser does |
| `JwtUtils.UrlSafeSegmentThrows` | jwtUtils.js:6 | a payload segment containing `-` or `_` makes the helper throw |
| `Complaints.DecodeJWT` | Complaints.jsx:5-12 | null for a missing token and for any failure in split, decode or parse; otherwise the parsed payload |
| `Complaints.ExtractedUserId` | Complaints.jsx:28 | undefined when decoding failed; otherwise the payload's `userId` or undefined |
| `Complaints.StoredToken` | Complaints.jsx:26 | the stored token, or None exactly when none is stored |
| `Complaints.TokenReadersCompared` | Complaints.jsx:26-28 | where the shared helper returns on a usable token, the form's id agrees with it; where it throws, the form's id is undefined; without a usable token the helper gives null and the form undefined |
| `Complaints.FinalData` | Complaints.jsx:39-42 | the submitted record equals the form in every field except `userId`, which is the token's id |
| `Complaints.AnonymousComplaintCarriesUserId` | Complaints.jsx:39-42 | an anonymous complaint keeps its flag and still carries the user id |
| `Complaints.ComplaintForm.constructor` | Complaints.jsx:15-23 | the form starts public, with status "PENDING", empty texts and a null user id |
| `Complaints.ComplaintForm.HandleFileUpload` | Complaints.jsx:29-34 | a chosen file's name becomes `attachedUrl`; with no file the form is unchanged |
| `Complaints.ComplaintForm.ChooseAnonymous` | Complaints.jsx:73 | only `isAnonymous` changes, to true |
| `Complaints.ComplaintForm.ChoosePublic` | Complaints.jsx:82 | only `isAnonymous` changes, to false |
| `Complaints.ComplaintForm.SelectCategory` | Complaints.jsx:93-94 | only `categoryType` changes |
| `Complaints.ComplaintForm.EnterDescription` | Complaints.jsx:109-110 | only `description` changes |
| `Complaints.ComplaintForm.SelectUrgency` | Complaints.jsx:118-119 | only `urgencyType` changes |
| `Complaints.ComplaintForm.HandleSubmit` | Complaints.jsx:36-57 | the record sent is the final record built from the form and the token; the notice depends on the outcome only |
| `Login.RouteFor` | Login.jsx:37-43 | "USER" goes to `/dashboard`, "EMPLOYEE" to `/employeePanel`, and every other role value, undefined included, to `/adminPanel` |
| `Login.ArrayRoleStoredAlikeRoutedElsewhere` | Login.jsx:32-43 | a role sent as `["USER"]` is stored as the same text as "USER" but routed to the admin panel |
| `Login.LoginForm.HandleChange` | Login.jsx:13-15 | only the named field changes |
| `Login.LoginForm.HandleSubmit` | Login.jsx:17-50 | on success exactly the four session keys are written, every other key is kept, and the route for the role is returned; on failure storage is untouched and nothing navigates |
| `Records.FillByIndex` | ChangeStatus.jsx:42-45 | the record has exactly the three category keys, and category i holds response i |
| `Records.InCategory` | EmployeePanel.jsx:42-44 | the exact-match filter: it keeps exactly the complaints of that category and adds none; a single complaint is kept or dropped on its own |
| `Records.InCategoryKeepsCopies` | EmployeePanel.jsx:42-44 | every copy of a complaint in the category is kept, and no complaint of another category appears |
| `Records.InCategoryAppend` | EmployeePanel.jsx:42-44 | filtering a concatenation filters each part and keeps them in order, which with the single-complaint case fixes the original order |
| `Records.Uncategorised` | EmployeePanel.jsx:41-45 | the complaints whose category is none of the three |
| `Records.GroupSizes` | EmployeePanel.jsx:41-45 | the three groups and the uncategorised complaints together account for every complaint exactly once |
| `Records.GroupByCategory` | EmployeePanel.jsx:40-45 | the grouped record has exactly the three keys, each holding the complaints of that category in order |
| `StatusDisplay.StatusColor` | ComplaintStatus.jsx:46-55 | the grey default exactly for a missing status or one that does not lower-case to a known status |
| `StatusDisplay.StatusIcon` | ComplaintStatus.jsx:57-66 | the default icon exactly for a missing status or one that does not lower-case to a known status |
| `StatusDisplay.UrgencyColor` | ComplaintStatus.jsx:68-75 | the grey default exactly for a missing urgency or one that does not lower-case to high, medium or low |
| `StatusDisplay.CategoryIcon` | AssignedComplaints.jsx:137-144 | the default icon exactly for a name other than the three categories, compared exactly |
| `StatusDisplay.StatusLookupIgnoresCase` | ComplaintStatus.jsx:46-66 | two spellings that lower-case alike get the same colour and icon |
| `ChangeStatus.StatusOptionsAreFixed` | ChangeStatus.jsx:9-16 | the options are exactly PENDING, InProgress and Resolved, and the default PENDING is among them |
| `ChangeStatus.ChangeStatusView.constructor` | ChangeStatus.jsx:13-18 | no lists, no selection, an empty comment, PENDING chosen, loading |
| `ChangeStatus.ChangeStatusView.SelectComplaint` | ChangeStatus.jsx:230 | only the selection changes, which opens or closes the dialog |
| `ChangeStatus.ChangeStatusView.EditComment` | ChangeStatus.jsx:325 | only the comment changes |
| `ChangeStatus.ChangeStatusView.FetchAllCategoryComplaints` | ChangeStatus.jsx:28-53 | on success category i holds response i; on failure the lists are unchanged; loading ends |
| `ChangeStatus.ChangeStatusView.SubmitDisabled` | ChangeStatus.jsx:357 | disabled exactly when the comment is all whitespace or a submit is in flight |
| `ChangeStatus.ChangeStatusView.SubmitChangeStatus` | ChangeStatus.jsx:55-89 | a blank comment sends nothing and changes nothing; success clears the selection and the comment, resets the status to PENDING and re-fetches; failure keeps all three; `submitting` ends false |
| `ChangeStatus.ChangeStatusView.ChooseStatus` | ChangeStatus.jsx:296 | only the status changes |
| `UpdateStatus.Find` | UpdateStatus.jsx:62 | an option whose value matches exactly and no earlier option matches (the first match), or none exactly when no option matches |
| `UpdateStatus.StatusColor` | UpdateStatus.jsx:61-64 | "#666" exactly for a value that is not one of the four options, compared case-sensitively; otherwise that option's colour |
| `UpdateStatus.StatusIcon` | UpdateStatus.jsx:66-69 | the memo icon exactly for a value that is not one of the four options; otherwise that option's icon |
| `UpdateStatus.ColourLookupIsCaseSensitive` | UpdateStatus.jsx:61-64 | "PENDING" has its own colour while "pending" gets the fallback |
| `UpdateStatus.UpdateStatusDialog.constructor` | UpdateStatus.jsx:18-21 | no status chosen and an empty comment, so submit starts disabled |
| `UpdateStatus.UpdateStatusDialog.OnCommentChange` | UpdateStatus.jsx:130-136 | an edit of at most 500 characters replaces the comment and clears the error; a longer one changes nothing; the comment never exceeds 500 characters |
| `UpdateStatus.UpdateStatusDialog.SubmitDisabled` | UpdateStatus.jsx:183 | disabled exactly while loading, with no status, or with an all-whitespace comment |
| `UpdateStatus.UpdateStatusDialog.HandleSubmit` | UpdateStatus.jsx:23-59 | no status or a blank comment only sets the error; otherwise a token that makes the id helper throw or a failed call sets the failure error and keeps the dialog open; success closes it; loading ends false either way |
| `UpdateStatus.UpdateStatusDialog.ChooseStatus` | UpdateStatus.jsx:107 | only the status changes |
| `AssignedComplaints.CountLabel` | AssignedComplaints.jsx:193 | the count's digits, a space, then "complaint" for one and "complaints" for every other count; "1 complaint" exactly for one |
| `AssignedComplaints.CountLabelReadsBack` | AssignedComplaints.jsx:193 | the digits in front of the space read back as the count |
| `AssignedComplaints.AssignView.constructor` | AssignedComplaints.jsx:9-20 | three empty category lists, no selection, no drafts, spinner on |
| `AssignedComplaints.AssignView.FetchAllCategories` | AssignedComplaints.jsx:29-55 | category i holds response i on success; failure keeps the lists; the three keys are always present |
| `AssignedComplaints.AssignView.FetchEmployees` | AssignedComplaints.jsx:58-74 | the complaint is selected even when the request fails; only success fills the list and opens the modal |
| `AssignedComplaints.AssignView.AssignComplaint` | AssignedComplaints.jsx:77-96 | the request names the current selection; success closes the modal, failure leaves it open; `assigning` ends false |
| `AssignedComplaints.AssignView.CloseEmployees` | AssignedComplaints.jsx:378 | the modal closes and nothing else changes |
| `AssignedComplaints.AssignView.Draft` | AssignedComplaints.jsx:100 | the employee's draft, present exactly when one was typed |
| `AssignedComplaints.AssignView.TextareaValue` | AssignedComplaints.jsx:330 | the employee's draft, or "" when there is none |
| `AssignedComplaints.AssignView.CommentDisabled` | AssignedComplaints.jsx:345 | disabled exactly when the employee has no draft or an all-whitespace one, which is exactly when `addComment` would refuse it |
| `AssignedComplaints.AssignView.OnCommentInput` | AssignedComplaints.jsx:331-336 | only that employee's draft changes |
| `AssignedComplaints.AssignView.AddComment` | AssignedComplaints.jsx:99-124 | a missing or blank draft raises the alert and sends nothing; success resets only that employee's draft to ""; failure keeps every draft |
| `EscalateComplaints.OptionIcon` | EscalateComplaints.jsx:239-241 | the page icon exactly for options other than Escalated, Resolved and InProgress |
| `EscalateComplaints.EscalatedSpellingMatters` | EscalateComplaints.jsx:186 | a complaint stored as "escalated" is coloured as escalated, yet its escalate button stays enabled |
| `EscalateComplaints.PendingIconsDiffer` | EscalateComplaints.jsx:239-241 | the dialog's icon for PENDING differs from the shared status icon |
| `EscalateComplaints.EscalateView.constructor` | EscalateComplaints.jsx:19-22 | no lists, no selection, "Escalated" chosen |
| `EscalateComplaints.EscalateView.CountShown` | EscalateComplaints.jsx:133 | 0 for a category whose list has not arrived, the list's length otherwise |
| `EscalateComplaints.EscalateView.ShowsNoComplaints` | EscalateComplaints.jsx:139 | the empty-list message appears only for a list that arrived empty |
| `EscalateComplaints.EscalateView.DialogShown` | EscalateComplaints.jsx:211 | the dialog shows exactly for a selected, non-zero id |
| `EscalateComplaints.EscalateView.FetchAllCategories` | EscalateComplaints.jsx:31-58 | on success the three keys hold responses 0, 1 and 2; failure keeps the lists |
| `EscalateComplaints.EscalateView.SelectComplaint` | EscalateComplaints.jsx:185-186 | reachable only for a complaint whose status is not exactly "Escalated"; it selects that complaint |
| `EscalateComplaints.EscalateView.CancelSelection` | EscalateComplaints.jsx:261 | clears the selection, which hides the dialog |
| `EscalateComplaints.EscalateView.ChooseStatus` | EscalateComplaints.jsx:232 | only the chosen status changes |
| `EscalateComplaints.EscalateView.EscalateComplaint` | EscalateComplaints.jsx:61-79 | the request carries the selection and the chosen status; success clears the selection and re-fetches; any failure gives the single week-old message and keeps the selection; the chosen status is never reset |
| `Feedback.FeedbackForm.constructor` | Feedback.jsx:11-13 | empty description and rating, not loading |
| `Feedback.FeedbackForm.SelectRating` | Feedback.jsx:62-73 | the rating is always "" or "1" to "5" |
| `Feedback.FeedbackForm.EditFeedback` | Feedback.jsx:83 | only the description changes |
| `Feedback.FeedbackForm.SubmitFeedback` | Feedback.jsx:15-50 | an empty description or rating only warns, and whitespace is not empty; a token that makes the id helper throw or a failed call keeps both fields; success clears both; loading ends false |
| `Statistics.CountExact` | Statistics.jsx:58-59 | at most the total, and 0 exactly when no complaint carries that exact status |
| `Statistics.PendingCount` | Statistics.jsx:58-62 | the PENDING card is at most the total, and 0 exactly when no complaint is spelled "PENDING" or "Pending" |
| `Statistics.PendingCountIsBothSpellings` | Statistics.jsx:58-62 | the card equals the exact "PENDING" key count plus the "Pending" branch count |
| `Statistics.PendingStep` | Statistics.jsx:58-62 | one more complaint raises the card by one exactly when it is spelled "PENDING" or "Pending", so no other spelling counts |
| `Statistics.FirstWithStatus` | Statistics.jsx:66-67 | the first comment with exactly that status, absent exactly when there is none |
| `Statistics.CeilDiv` | Statistics.jsx:73 | `Math.ceil(x / d)`: the least whole number of days covering the distance |
| `Statistics.ResolutionDays` | Statistics.jsx:65-79 | a contribution exists only for an exactly "Resolved" complaint and is positive |
| `Statistics.ResolutionDaysExactly` | Statistics.jsx:65-79 | a contribution exists exactly for a "Resolved" complaint with comments whose first "Open" and first "Resolved" comments carry truthy, different dates, and it is their distance in days rounded up |
| `Statistics.ResolutionTimes` | Statistics.jsx:54-80 | at most one time per Resolved complaint, each at least one day |
| `Statistics.SumAtLeastCount` | Statistics.jsx:85 | resolution times of at least one day sum to at least their number |
| `Statistics.RoundedAverage` | Statistics.jsx:86 | `Math.round(sum / n)`: the whole number r with r - 1/2 <= sum/n < r + 1/2 |
| `Statistics.RoundedAverageAtLeastOne` | Statistics.jsx:86 | a mean of times of at least one day rounds to at least one |
| `Statistics.AverageZeroIffNoTimes` | Statistics.jsx:83-87 | the average is 0 exactly when no complaint contributed a time |
| `Statistics.AverageText` | Statistics.jsx:123 | "N/A" exactly for 0; otherwise the decimal number, then " Day", then an "s" exactly when above one, and nothing more |
| `Statistics.StatusCountsWithinTotal` | Statistics.jsx:54-62 | the four counters sum to at most the total |
| `Statistics.CalculateStatistics` | Statistics.jsx:41-87 | the loop's counters equal the exact-status counts, PENDING includes "Pending", and the average is the rounded mean of the resolution times |
| `Statistics.StatisticsView.FetchComplaintsData` | Statistics.jsx:22-39 | a response with data replaces the numbers; a failed request or missing data keeps them; all spinners stop |
| `Stat.CountUpper` | Stat.jsx:38-44 | at most the total, and 0 exactly when no complaint's upper-cased status is the wanted one; a missing status never counts |
| `Stat.ResolvedAndPendingWithinTotal` | Stat.jsx:36-44 | resolved plus pending never exceeds the total |
| `Stat.StatsView.FetchComplaintStats` | Stat.jsx:20-61 | missing data counts as an empty list; success sets the three counts and clears the error; failure keeps the counts and sets the error; loading ends |
| `Stat.StatsView.View` | Stat.jsx:64-102 | the loading card exactly while loading, nothing exactly after an error, otherwise the three counts |
| `ComplaintStatus.AllComments` | ComplaintStatus.jsx:150 | a missing comment list reads as empty |
| `ComplaintStatus.VisibleComments` | ComplaintStatus.jsx:150-158 | always a suffix of the timeline; all of it for the expanded complaint; otherwise the last comment, or nothing for an empty timeline |
| `ComplaintStatus.CollapsedHidesIffToggle` | ComplaintStatus.jsx:262 | a collapsed card hides comments exactly when it shows the timeline button |
| `ComplaintStatus.CommentStatusText` | ComplaintStatus.jsx:240 | a missing or empty status is shown as SUBMITTED |
| `ComplaintStatus.CountLower` | ComplaintStatus.jsx:119-128 | at most the total, and 0 exactly when no status lower-cases to the wanted one |
| `ComplaintStatus.SummaryWithinTotal` | ComplaintStatus.jsx:111-128 | in progress plus resolved never exceeds the total |
| `ComplaintStatus.Toggled` | ComplaintStatus.jsx:266-271 | the expanded complaint collapses to none; any other becomes the only expanded one |
| `ComplaintStatus.ToggleTwiceRestoresCollapsed` | ComplaintStatus.jsx:266-271 | expanding a collapsed complaint and pressing again collapses everything |
| `ComplaintStatus.ComplaintStatusView.FetchComplaints` | ComplaintStatus.jsx:18-39 | a token that makes the id helper throw sends nothing; a successful response replaces the list; loading ends |
| `ComplaintStatus.ComplaintStatusView.HandleRefresh` | ComplaintStatus.jsx:41-44 | the refresh count grows by exactly one, then the list is fetched |
| `ComplaintStatus.ComplaintStatusView.ToggleTimeline` | ComplaintStatus.jsx:262-272 | reachable only for timelines longer than one; it toggles that complaint |
| `EmployeePanel.EmployeePanelView.ListShown` | EmployeePanel.jsx:95-99 | the category's list, or empty before any fetch |
| `EmployeePanel.EmployeePanelView.FetchEmployeeComplaints` | EmployeePanel.jsx:28-51 | a token that makes the id helper throw or a failed call keeps the lists; success groups the response by exact category |
| `EmployeePanel.EmployeePanelView.SelectView` | EmployeePanel.jsx:16-26 | the view becomes the clicked one; a fetch happens exactly when switching to STATUS from another view; Logout removes only username and password and navigates to "/" |
| `EmployeePanel.EmployeePanelView.SelectComplaint` | EmployeePanel.jsx:113 | only the selection changes |
| `EmployeePanel.LogoutKeepsToken` | EmployeePanel.jsx:16-20 | after logout the token is still stored and the id helper reads the same result as before |
| `RecentComplaints.GetTimeAgo` | RecentComplaints.jsx:53-67 | "Recently" exactly for a missing date; minutes below 60, including negative ones; hours 1 to 23; days 1 to 6; each the floor of the difference; the calendar date from a week on |
| `RecentComplaints.CoarsenessMonotone` | RecentComplaints.jsx:59-66 | an older complaint is never shown in a finer unit than a newer one |
| `RecentComplaints.TimeAgoText` | RecentComplaints.jsx:54-66 | "Recently" for a missing date, then "Nm ago", "Nh ago", "Nd ago"; the calendar date is left to the locale |
| `RecentComplaints.FirstFive` | RecentComplaints.jsx:18 | the first min(5, n) complaints, in order |
| `RecentComplaints.RecentView.FetchComplaints` | RecentComplaints.jsx:14-24 | success keeps the first five; failure keeps the list; never more than five |
| `RecentComplaints.RecentView.HandleRefresh` | RecentComplaints.jsx:26-29 | the refresh count grows by exactly one, then the list is fetched |
| `ReportsExport.Field` | ReportsExport.jsx:60-63 | `filters.x \|\| ""`: a missing field reads as "" |
| `ReportsExport.ExportUrl` | ReportsExport.jsx:58-64 | the export path, then the four filters in order, with the lower-cased format last |
| `ReportsExport.FormatsShareThePath` | ReportsExport.jsx:59-64 | CSV and PDF links are identical up to the last three characters, "csv" and "pdf" |
| `ReportsExport.VisibleComplaints` | ReportsExport.jsx:82 | all complaints when showing all; otherwise the first min(6, n), in order |
| `ReportsExport.HiddenCount` | ReportsExport.jsx:302 | a list longer than six announces a positive number of further rows |
| `ReportsExport.CollapsedPlusHiddenIsAll` | ReportsExport.jsx:288-302 | the collapsed page and the announced rest make up the whole list |
| `ReportsExport.ReportsView.HandleChange` | ReportsExport.jsx:22-24 | only the named filter changes |
| `ReportsExport.ReportsView.ClearFilters` | ReportsExport.jsx:73-80 | all four filters become "" |
| `ReportsExport.ReportsView.SetExportType` | ReportsExport.jsx:209-217 | the format becomes CSV or PDF |
| `ReportsExport.ReportsView.GenerateReport` | ReportsExport.jsx:27-49 | the query is the current filters; success replaces the list and collapses it; failure keeps it; generation ends |
| `ReportsExport.ReportsView.ExportReport` | ReportsExport.jsx:52-70 | without a format only the error and no link; otherwise the export link and the download notice |
| `ReportsExport.ReportsView.ToggleShowAll` | ReportsExport.jsx:288-292 | reachable only for more than six rows; it flips show-all |
| `FeedbackLanding.JsRem` | FeedbackLanding.jsx:48 | JavaScript's `%` agrees with the mathematical remainder on non-negative dividends |
| `FeedbackLanding.NextIndex` | FeedbackLanding.jsx:59 | (i + 1) mod n stays in range and wraps to 0 after the last entry |
| `FeedbackLanding.PrevIndex` | FeedbackLanding.jsx:53 | (i - 1 + n) mod n stays in range and wraps to the last entry before 0 |
| `FeedbackLanding.PrevUndoesNext` | FeedbackLanding.jsx:52-62 | previous after next, and next after previous, restore the index |
| `FeedbackLanding.SlideIndex` | FeedbackLanding.jsx:85 | every slide index is in range |
| `FeedbackLanding.SlidesAreNeighbours` | FeedbackLanding.jsx:84-91 | the left, centre and right slides are the previous, current and next entries |
| `FeedbackLanding.FewEntriesRepeat` | FeedbackLanding.jsx:84-91 | one entry fills all three slides; with two, both sides show the other |
| `FeedbackLanding.RenderStars` | FeedbackLanding.jsx:70-77 | always five stars, star k filled exactly when k < rating |
| `FeedbackLanding.FilledStarsIsClampedRating` | FeedbackLanding.jsx:70-77 | the number of filled stars is the rating clamped to 0..5 |
| `FeedbackLanding.AvatarInitial` | FeedbackLanding.jsx:160 | one character: the upper-cased first letter of the name, or "U" |
| `FeedbackLanding.Carousel.FetchAllFeedback` | FeedbackLanding.jsx:33-42 | success replaces the list, failure keeps it, loading ends, the index stays 0 |
| `FeedbackLanding.Carousel.AutoSlide` | FeedbackLanding.jsx:47-49 | one tick moves to the next entry without pausing |
| `FeedbackLanding.Carousel.HandleNext` | FeedbackLanding.jsx:58-62 | the next entry, and the carousel pauses |
| `FeedbackLanding.Carousel.HandlePrev` | FeedbackLanding.jsx:52-56 | the previous entry, and the carousel pauses |
| `FeedbackLanding.Carousel.GoToSlide` | FeedbackLanding.jsx:64-68 | exactly the chosen entry, and the carousel pauses |
| `FeedbackLanding.Carousel.SetPaused` | FeedbackLanding.jsx:124-125 | only the pause flag changes |
| `FeedbackLanding.Carousel.GetVisibleSlides` | FeedbackLanding.jsx:79-94 | exactly three slides at positions -1, 0 and 1, each showing the entry at its in-range index, with the centre at the current index |
| `Faq.QuestionNumber` | FAQ.jsx:65 | at least two characters, all digits |
| `Faq.QuestionNumberShape` | FAQ.jsx:65 | "0" and one digit for questions 1 to 9; the plain number from 10 on |
| `Faq.LeadingZeroValue` | FAQ.jsx:65 | a leading zero does not change the value of a digit string |
| `Faq.QuestionNumberValue` | FAQ.jsx:65 | the displayed number reads back as the question's position counted from 1 |
| `Faq.QuestionNumbersDistinct` | FAQ.jsx:65 | distinct questions carry distinct numbers |
| `Faq.Accordion.ToggleFaq` | FAQ.jsx:43-45 | clicking the open question closes it; any other click opens only that question |
| `Faq.ToggleTwiceCloses` | FAQ.jsx:43-45 | two clicks on a question of a closed accordion leave it closed |

## Left out

- Network calls, `Promise.all`, the backend and the request headers. Each outcome is a parameter. URL
  encoding of request parameters is not modelled, and neither is the bearer header's text.
- Rendering, CSS, toasts as UI, `console`, `navigate` and `window.open`. Only the returned notice, the
  target path and the link text are modelled.
- Timers: the four-second interval and the five-second un-pause of the carousel. They are the
  transitions `FeedbackLanding.Carousel.AutoSlide` and `FeedbackLanding.Carousel.SetPaused`.
- `Date` parsing and `new Date()`. Dates are integer millisecond timestamps. The clock is a
  parameter. `toLocaleDateString` and `toLocaleString` are not modelled; the statistics cards keep
  their counts as numbers.
- A comment date of 0 is falsy and does not count in the average. This follows from treating dates
  as numbers; a date string "0" would be truthy.
- `JSON.parse` is a function parameter that returns None where it would throw a SyntaxError. JSON
  numbers are integers in this model.
- Case mapping covers ASCII letters only. Lengths count Unicode code points, while JavaScript counts
  UTF-16 units, for example in the 500-character comment cap.
- ChangeStatus.jsx:21 calls `getUserIdFromToken` while the screen renders, outside any try. A
  malformed token would make the whole screen fail to render. The model takes the value it returned
  as a parameter of `ChangeStatus.ChangeStatusView.SubmitChangeStatus`.
- Complaint ids are integers. A complaint without an id, which JavaScript would match against a null
  `expandedId`, is not modelled.
- The `statusCounts` lookup in Statistics.jsx:58 also finds inherited keys such as "constructor". Such
  a status bumps no counter, as in the model, but the NaN it writes into the object is not modelled.
- Feedback ratings are integers in the carousel. JavaScript would convert a rating string before
  comparing it with the star index.
- `FeedbackLanding.Carousel.FetchAllFeedback` requires the initial state, because the source runs
  it once on mount.
- The refresh buttons' `disabled={loading}` is not a precondition. Each modelled handler completes
  before the next event.
- The FAQ's question and answer texts, the statistics card colours and other presentation-only
  values are not modelled.
- Context files are not part of this model: App.jsx, LandingPage.jsx, Footer.jsx, Sidebar.jsx,
  AdminPanel.jsx, Dashboard.jsx, Signup.jsx, ShowFeedback.jsx, ViewComments.jsx and
  complaintService.js.

=== FILE: assigned_complaints.dfy ===
/** AssignedComplaints.jsx: the admin screen that lists complaints per category, opens a list of
    employees for one complaint, assigns it, and posts an optional comment per employee. */
module AssignedComplaints {
  import opened Common
  import opened JsText
  import opened Records

  /** An employee as the all-employee endpoint returns it; only the id drives behaviour. */
  datatype Employee = Employee(id: int, categoryType: string)

  /** The assignment request: `selectedComplaintId` is whatever is selected, null included. */
  datatype AssignRequest = AssignRequest(complaintId: Option<int>, empId: int)

  /** The per-employee comment request. */
  datatype CommentRequest = CommentRequest(complaintId: Option<int>, empId: int, desc: string)

  const AssignedToast: string := "\U{2705} Complaint assigned successfully!"
  const AssignFailedToast: string := "\U{274C} Failed to assign complaint"
  const CommentAddedToast: string := "\U{2705} Comment added successfully!"
  const CommentFailedToast: string := "\U{274C} Failed to add comment"
  const EmptyCommentAlert: string := "\U{26A0}\U{FE0F} Comment cannot be empty"

  /** `!text || text.trim() === ""`: a missing, empty or all-blank comment draft. */
  predicate NoCommentText(text: Option<string>)
  {
    text.None? || IsBlank(text.value)
  }

  /** The badge under each category title: the count followed by a singular or plural noun. */
  function CountLabel(n: nat): (r: string)
    ensures |NatToString(n)| < |r| && r[..|NatToString(n)|] == NatToString(n) && r[|NatToString(n)|] == ' '
    ensures r == "1 complaint" <==> n == 1
    ensures r[|NatToString(n)| + 1..] == if n == 1 then "complaint" else "complaints"
  {
    var noun := if n == 1 then "complaint" else "complaints";
    var r := NatToString(n) + " " + noun;
    assert r[..|NatToString(n)|] == NatToString(n);
    assert r[|NatToString(n)| + 1..] == noun;
    assert n != 1 ==> r[|r| - 1] == 's';
    r
  }

  /** The badge loses nothing: the digits in front of the space read back as the count. */
  lemma CountLabelReadsBack(n: nat)
    ensures var k, r := |NatToString(n)|, CountLabel(n);
            && k < |r| && (forall i :: 0 <= i < k ==> IsDigit(r[i]))
            && DigitsValue(r[..k]) == n
  {
    DigitsValueOfNatToString(n);
  }

  class AssignView {
    var complaints: map<string, seq<Complaint>>
    var employees: seq<Employee>
    var selectedComplaintId: Option<int>
    var showEmployees: bool
    var commentText: map<int, string>
    var loading: bool
    var assigning: bool

    /** The per-category record always holds exactly the three category keys. */
    ghost predicate Valid()
      reads this
    {
      complaints.Keys == CategoryKeys()
    }

    /** The first render: three empty lists, no employees, no selection, spinner on. */
    constructor ()
      ensures Valid()
      ensures forall i :: 0 <= i < |Categories| ==> complaints[Categories[i]] == []
      ensures employees == [] && selectedComplaintId == None && !showEmployees
      ensures commentText == map[] && loading && !assigning
    {
      complaints := map["Technical" := [], "Administrative" := [], "SERVICE" := []];
      employees := [];
      selectedComplaintId := None;
      showEmployees := false;
      commentText := map[];
      loading := true;
      assigning := false;
    }

    /** fetchAllCategories: the three requests are joined all-or-nothing; on success response i becomes
        the list of category i, on failure the lists stay. Loading ends either way. */
    method FetchAllCategories(responses: Option<seq<seq<Complaint>>>)
      requires Valid()
      requires responses.Some? ==> |responses.value| == |Categories|
      modifies this
      ensures Valid()
      ensures responses.Some? ==> forall i :: 0 <= i < |Categories| ==> complaints[Categories[i]] == responses.value[i]
      ensures responses.None? ==> complaints == old(complaints)
      ensures !loading
      ensures employees == old(employees) && selectedComplaintId == old(selectedComplaintId)
      ensures showEmployees == old(showEmployees) && commentText == old(commentText) && assigning == old(assigning)
    {
      loading := true;
      if responses.Some? {
        var r := responses.value;
        complaints := map["Technical" := r[0], "Administrative" := r[1], "SERVICE" := r[2]];
      }
      loading := false;
    }

    /** fetchEmployees: the complaint is selected before the request, so it stays selected even when the
        request fails; only a success fills the list and opens the modal. */
    method FetchEmployees(complaintId: int, response: Option<seq<Employee>>)
      modifies this
      ensures selectedComplaintId == Some(complaintId)
      ensures response.Some? ==> employees == response.value && showEmployees
      ensures response.None? ==> employees == old(employees) && showEmployees == old(showEmployees)
      ensures complaints == old(complaints) && commentText == old(commentText)
      ensures loading == old(loading) && assigning == old(assigning)
    {
      selectedComplaintId := Some(complaintId);
      if response.Some? {
        employees := response.value;
        showEmployees := true;
      }
    }

    /** The close and cancel buttons of the modal. */
    method CloseEmployees()
      modifies this
      ensures !showEmployees
      ensures complaints == old(complaints) && employees == old(employees)
      ensures selectedComplaintId == old(selectedComplaintId) && commentText == old(commentText)
      ensures loading == old(loading) && assigning == old(assigning)
    {
      showEmployees := false;
    }

    /** assignComplaint: the request always goes out with the current selection; success closes the modal,
        failure leaves it open; the assigning flag is cleared in both cases. */
    method AssignComplaint(empId: int, posted: bool) returns (request: AssignRequest, notice: Notice)
      modifies this
      ensures request == AssignRequest(old(selectedComplaintId), empId)
      ensures posted ==> !showEmployees && notice == SuccessToast(AssignedToast)
      ensures !posted ==> showEmployees == old(showEmployees) && notice == ErrorToast(AssignFailedToast)
      ensures !assigning
      ensures complaints == old(complaints) && employees == old(employees)
      ensures selectedComplaintId == old(selectedComplaintId) && commentText == old(commentText)
      ensures loading == old(loading)
    {
      assigning := true;
      request := AssignRequest(selectedComplaintId, empId);
      if posted {
        notice := SuccessToast(AssignedToast);
        showEmployees := false;
      } else {
        notice := ErrorToast(AssignFailedToast);
      }
      assigning := false;
    }

    /** The draft for one employee, or None when none has been typed. */
    function Draft(empId: int): (r: Option<string>)
      reads this
      ensures r.Some? <==> empId in commentText
      ensures r.Some? ==> r.value == commentText[empId]
    {
      if empId in commentText then Some(commentText[empId]) else None
    }

    /** The textarea's value, `commentText[emp.id] || ""`. */
    function TextareaValue(empId: int): (r: string)
      reads this
      ensures empId in commentText ==> r == commentText[empId]
      ensures empId !in commentText ==> r == ""
    {
      if empId in commentText && commentText[empId] != "" then commentText[empId] else ""
    }

    /** `disabled={!commentText[emp.id]?.trim()}` on the add-comment button: exactly the drafts that
        addComment would refuse. */
    function CommentDisabled(empId: int): (r: bool)
      reads this
      ensures r <==> empId !in commentText || AllSpace(commentText[empId])
      ensures r <==> NoCommentText(Draft(empId))
    {
      if empId in commentText then
        BlankIffAllSpace(commentText[empId]);
        IsBlank(commentText[empId])
      else true
    }

    /** The textarea's onChange: only this employee's draft changes. */
    method OnCommentInput(empId: int, value: string)
      modifies this
      ensures commentText == old(commentText)[empId := value]
      ensures forall e :: e != empId ==> Draft(e) == old(Draft(e))
      ensures complaints == old(complaints) && employees == old(employees)
      ensures selectedComplaintId == old(selectedComplaintId) && showEmployees == old(showEmployees)
      ensures loading == old(loading) && assigning == old(assigning)
    {
      commentText := commentText[empId := value];
    }

    /** addComment: a missing or blank draft raises an alert and sends nothing. Otherwise the draft is
        sent for the current selection; success empties only that employee's draft, failure keeps it. */
    method AddComment(empId: int, posted: bool) returns (request: Option<CommentRequest>, notice: Notice)
      modifies this
      ensures NoCommentText(old(Draft(empId))) ==>
        request == None && notice == Alert(EmptyCommentAlert) && commentText == old(commentText)
      ensures !NoCommentText(old(Draft(empId))) ==>
        && request == Some(CommentRequest(old(selectedComplaintId), empId, old(commentText)[empId]))
        && (posted ==> commentText == old(commentText)[empId := ""] && notice == SuccessToast(CommentAddedToast))
        && (!posted ==> commentText == old(commentText) && notice == ErrorToast(CommentFailedToast))
      ensures complaints == old(complaints) && employees == old(employees)
      ensures selectedComplaintId == old(selectedComplaintId) && showEmployees == old(showEmployees)
      ensures loading == old(loading) && assigning == old(assigning)
    {
      var text := Draft(empId);
      if NoCommentText(text) {
        request, notice := None, Alert(EmptyCommentAlert);
        return;
      }
      request := Some(CommentRequest(selectedComplaintId, empId, text.value));
      if posted {
        notice := SuccessToast(CommentAddedToast);
        commentText := commentText[empId := ""];
      } else {
        notice := ErrorToast(CommentFailedToast);
      }
    }
  }
}

=== FILE: base64.dfy ===
/** The browser's atob: the forgiving-base64 decode of the WHATWG Infra standard (section 4.7,
    "forgiving-base64 decode") over the standard alphabet A–Z a–z 0–9 + /, and an unpadded
    encoder used to state what atob recovers. */
module Base64 {
  import opened Common

  type Byte = b: int | 0 <= b < 256
  type Sextet = v: int | 0 <= v < 64

  /** A character of the standard base64 alphabet. */
  predicate IsAlphabetChar(c: char)
  {
    ('A' <= c <= 'Z') || ('a' <= c <= 'z') || ('0' <= c <= '9') || c == '+' || c == '/'
  }

  /** The six-bit value a character of the alphabet stands for; None for any other character. */
  function SextetOf(c: char): (r: Option<Sextet>)
    ensures r.Some? <==> IsAlphabetChar(c)
  {
    if 'A' <= c <= 'Z' then Some(c as int - 'A' as int)
    else if 'a' <= c <= 'z' then Some(26 + (c as int - 'a' as int))
    else if '0' <= c <= '9' then Some(52 + (c as int - '0' as int))
    else if c == '+' then Some(62)
    else if c == '/' then Some(63)
    else None
  }

  /** The alphabet character for a six-bit value. */
  function CharOf(v: Sextet): (c: char)
    ensures IsAlphabetChar(c) && SextetOf(c) == Some(v)
  {
    if v < 26 then ('A' as int + v) as char
    else if v < 52 then ('a' as int + (v - 26)) as char
    else if v < 62 then ('0' as int + (v - 52)) as char
    else if v == 62 then '+'
    else '/'
  }

  /** The white space forgiving-base64 decode skips: TAB, LF, FF, CR and SPACE. */
  predicate IsAsciiWhitespace(c: char)
  {
    c == '\t' || c == '\n' || c == '\U{C}' || c == '\r' || c == ' '
  }

  /** Step 1: remove ASCII white space, keeping the other characters in order. */
  function StripWhitespace(s: string): (r: string)
    ensures |r| <= |s|
    ensures forall c :: c in r <==> c in s && !IsAsciiWhitespace(c)
  {
    if s == [] then []
    else (if IsAsciiWhitespace(s[0]) then [] else [s[0]]) + StripWhitespace(s[1..])
  }

  /** Step 2: when the length is a multiple of four, drop one or two trailing '='. */
  function StripPadding(s: string): (r: string)
    ensures r == s || (|s| % 4 == 0 && 1 <= |s| - |r| <= 2 && r == s[..|r|] && forall i :: |r| <= i < |s| ==> s[i] == '=')
  {
    if |s| % 4 == 0 && |s| >= 2 && s[|s| - 2] == '=' && s[|s| - 1] == '=' then s[..|s| - 2]
    else if |s| % 4 == 0 && |s| >= 1 && s[|s| - 1] == '=' then s[..|s| - 1]
    else s
  }

  /** Step 4: the six-bit values of a string, or None when some character is outside the alphabet. */
  function Sextets(s: string): (r: Option<seq<Sextet>>)
    ensures r.Some? <==> forall i :: 0 <= i < |s| ==> IsAlphabetChar(s[i])
    ensures r.Some? ==> |r.value| == |s| && forall i :: 0 <= i < |s| ==> Some(r.value[i]) == SextetOf(s[i])
  {
    if s == [] then Some([])
    else
      match (SextetOf(s[0]), Sextets(s[1..]))
      case (Some(v), Some(vs)) => Some([v] + vs)
      case _ => None
  }

  /** Step 5: every four sextets give three bytes; two or three left over give one or two bytes
      and their unused low bits are dropped. */
  function DecodeSextets(v: seq<Sextet>): (r: seq<Byte>)
    requires |v| % 4 != 1
    ensures |r| == (|v| / 4) * 3 + (if |v| % 4 == 0 then 0 else |v| % 4 - 1)
  {
    if |v| == 0 then []
    else
      var a, b := v[0] as int, v[1] as int;
      if |v| == 2 then [a * 4 + b / 16]
      else
        var c := v[2] as int;
        if |v| == 3 then [a * 4 + b / 16, (b % 16) * 16 + c / 4]
        else [a * 4 + b / 16, (b % 16) * 16 + c / 4, (c % 4) * 64 + v[3]] + DecodeSextets(v[4..])
  }

  /** atob(s): the decoded bytes, or None where the browser throws InvalidCharacterError. */
  function Atob(s: string): (r: Option<seq<Byte>>)
    ensures r.None? <==> (|StripPadding(StripWhitespace(s))| % 4 == 1 || Sextets(StripPadding(StripWhitespace(s))).None?)
  {
    var t := StripPadding(StripWhitespace(s));
    if |t| % 4 == 1 then None
    else
      match Sextets(t)
      case None => None
      case Some(v) => Some(DecodeSextets(v))
  }

  /** The sextets of the unpadded base64 encoding of some bytes (three bytes to four sextets). */
  function EncodeSextets(b: seq<Byte>): (r: seq<Sextet>)
    ensures |r| % 4 != 1
  {
    if |b| == 0 then []
    else if |b| == 1 then [b[0] / 4, (b[0] % 4) * 16]
    else if |b| == 2 then [b[0] / 4, (b[0] % 4) * 16 + b[1] / 16, (b[1] % 16) * 4]
    else [b[0] / 4, (b[0] % 4) * 16 + b[1] / 16, (b[1] % 16) * 4 + b[2] / 64, b[2] % 64] + EncodeSextets(b[3..])
  }

  /** The unpadded base64 text of some bytes, as a JWT segment carries it (standard alphabet). */
  function Encode(b: seq<Byte>): (r: string)
    ensures |r| % 4 != 1
    ensures forall i :: 0 <= i < |r| ==> IsAlphabetChar(r[i])
  {
    var v := EncodeSextets(b);
    seq(|v|, i requires 0 <= i < |v| => CharOf(v[i]))
  }

  /** Regrouping three bytes into four sextets and back loses nothing; a missing byte reads as 0. */
  lemma RegroupBytes(x: Byte, y: Byte, z: Byte)
    ensures (x / 4) * 4 + ((x % 4) * 16 + y / 16) / 16 == x
    ensures (((x % 4) * 16 + y / 16) % 16) * 16 + ((y % 16) * 4 + z / 64) / 4 == y
    ensures (((y % 16) * 4 + z / 64) % 4) * 64 + z % 64 == z
  {
    assert ((x % 4) * 16 + y / 16) / 16 == x % 4;
    assert ((x % 4) * 16 + y / 16) % 16 == y / 16;
    assert ((y % 16) * 4 + z / 64) / 4 == y % 16;
    assert ((y % 16) * 4 + z / 64) % 4 == z / 64;
  }

  /** Four leading sextets decode to three bytes, ahead of whatever the rest decodes to. */
  lemma DecodeFirstGroup(v: seq<Sextet>)
    requires |v| >= 4 && |v| % 4 != 1
    ensures var a, b, c, d := v[0] as int, v[1] as int, v[2] as int, v[3] as int;
      DecodeSextets(v) == [a * 4 + b / 16, (b % 16) * 16 + c / 4, (c % 4) * 64 + d] + DecodeSextets(v[4..])
  {
  }

  /** A single trailing byte survives its two sextets. */
  lemma RoundTripOne(x: Byte)
    ensures DecodeSextets(EncodeSextets([x])) == [x]
  {
    RegroupBytes(x, 0, 0);
    assert EncodeSextets([x]) == [x / 4, (x % 4) * 16];
  }

  /** Two trailing bytes survive their three sextets. */
  lemma RoundTripTwo(x: Byte, y: Byte)
    ensures DecodeSextets(EncodeSextets([x, y])) == [x, y]
  {
    RegroupBytes(x, y, 0);
    assert EncodeSextets([x, y]) == [x / 4, (x % 4) * 16 + y / 16, (y % 16) * 4];
  }

  /** Three leading bytes survive their four sextets, ahead of whatever the rest decodes to. */
  lemma RoundTripThree(x: Byte, y: Byte, z: Byte, rest: seq<Byte>)
    ensures DecodeSextets(EncodeSextets([x, y, z] + rest)) == [x, y, z] + DecodeSextets(EncodeSextets(rest))
  {
    var b := [x, y, z] + rest;
    assert b[3..] == rest;
    var g: seq<Sextet> := [x / 4, (x % 4) * 16 + y / 16, (y % 16) * 4 + z / 64, z % 64];
    assert EncodeSextets(b) == g + EncodeSextets(rest);
    assert (g + EncodeSextets(rest))[4..] == EncodeSextets(rest);
    DecodeFirstGroup(g + EncodeSextets(rest));
    RegroupBytes(x, y, z);
  }

  lemma {:induction false} DecodeEncodeSextets(b: seq<Byte>)
    ensures DecodeSextets(EncodeSextets(b)) == b
  {
    if |b| == 1 {
      assert b == [b[0]];
      RoundTripOne(b[0]);
    } else if |b| == 2 {
      assert b == [b[0], b[1]];
      RoundTripTwo(b[0], b[1]);
    } else if |b| >= 3 {
      assert b == [b[0], b[1], b[2]] + b[3..];
      RoundTripThree(b[0], b[1], b[2], b[3..]);
      DecodeEncodeSextets(b[3..]);
    }
  }

  /** atob recovers exactly the bytes whose unpadded encoding it is given. */
  lemma AtobEncode(b: seq<Byte>)
    ensures Atob(Encode(b)) == Some(b)
  {
    var s := Encode(b);
    var v := EncodeSextets(b);
    StripWhitespaceIdentity(s);
    assert StripPadding(s) == s;
    var r := Sextets(s);
    assert r.Some?;
    assert r.value == v by {
      forall i | 0 <= i < |v| ensures r.value[i] == v[i] {
        assert Some(r.value[i]) == SextetOf(CharOf(v[i]));
      }
    }
    DecodeEncodeSextets(b);
  }

  lemma {:induction false} StripWhitespaceIdentity(s: string)
    requires forall i :: 0 <= i < |s| ==> !IsAsciiWhitespace(s[i])
    ensures StripWhitespace(s) == s
  {
    if s != [] {
      StripWhitespaceIdentity(s[1..]);
    }
  }

  /** Text without white space whose length leaves a remainder of one on division by four makes atob
      throw, whatever its characters. */
  lemma AtobRejectsLengthOneModFour(s: string)
    requires |s| % 4 == 1 && forall i :: 0 <= i < |s| ==> !IsAsciiWhitespace(s[i])
    ensures Atob(s) == None
  {
    StripWhitespaceIdentity(s);
  }

  /** Any character that is neither alphabet, padding nor white space makes atob throw: in particular
      the '-' and '_' of the URL-safe alphabet that JWT segments use (RFC 7515 section 2, "Base64url Encoding"). */
  lemma AtobRejectsForeignChar(s: string, c: char)
    requires c in s && !IsAlphabetChar(c) && !IsAsciiWhitespace(c) && c != '='
    ensures Atob(s) == None
  {
    var w := StripWhitespace(s);
    var t := StripPadding(w);
    assert c in w;
    var k :| 0 <= k < |w| && w[k] == c;
    assert k < |t| && t[k] == c;
  }

  /** atob("undefined"), what `atob(token.split(".")[1])` evaluates when the token has no dot, throws:
      nine characters leave a remainder of one. */
  lemma AtobOfUndefinedThrows()
    ensures Atob("undefined") == None
  {
    AtobRejectsLengthOneModFour("undefined");
  }
}

=== FILE: change_status.dfy ===
/** ChangeStatus.jsx: the admin screen that lists complaints per category and posts a comment together
    with a new status for the selected complaint. */
module ChangeStatus {
  import opened Common
  import opened JsText
  import opened Records
  import opened JsValues

  /** The statuses the dialog offers. */
  const StatusOptions: seq<string> := ["PENDING", "InProgress", "Resolved"]

  /** The status preselected when the screen opens and after every successful update. */
  const DefaultStatus: string := "PENDING"

  /** The parameters of one add-comment request; the admin's id goes into the path through String(). */
  datatype StatusRequest = StatusRequest(complaintsId: int, adminUserIdText: string, desc: string, statusType: string)

  /** The selectable statuses are exactly PENDING, InProgress and Resolved, and the default is among them. */
  lemma StatusOptionsAreFixed()
    ensures DefaultStatus in StatusOptions
    ensures forall s :: s in StatusOptions <==> s in {"PENDING", "InProgress", "Resolved"}
  {
  }

  class ChangeStatusView {
    var complaints: map<string, seq<Complaint>>
    var selectedComplaint: Option<Complaint>
    var comment: string
    var statusType: string
    var loading: bool
    var submitting: bool

    constructor ()
      ensures complaints == map[] && selectedComplaint == None && comment == ""
      ensures statusType == DefaultStatus && loading && !submitting
    {
      complaints := map[];
      selectedComplaint := None;
      comment := "";
      statusType := DefaultStatus;
      loading := true;
      submitting := false;
    }

    /** fetchAllCategoryComplaints: one response per category, joined all-or-nothing (None when any
        request fails). On success category i maps to response i; on failure the lists stay as they were. */
    method FetchAllCategoryComplaints(responses: Option<seq<seq<Complaint>>>)
      requires responses.Some? ==> |responses.value| == |Categories|
      modifies this
      ensures responses.Some? ==>
        && complaints.Keys == CategoryKeys()
        && forall i :: 0 <= i < |Categories| ==> complaints[Categories[i]] == responses.value[i]
      ensures responses.None? ==> complaints == old(complaints)
      ensures !loading
      ensures selectedComplaint == old(selectedComplaint) && comment == old(comment)
      ensures statusType == old(statusType) && submitting == old(submitting)
    {
      loading := true;
      if responses.Some? {
        var data := FillByIndex(responses.value);
        complaints := data;
      }
      loading := false;
    }

    /** Opening the dialog for a complaint, or closing it (None). */
    method SelectComplaint(c: Option<Complaint>)
      modifies this
      ensures selectedComplaint == c
      ensures complaints == old(complaints) && comment == old(comment) && statusType == old(statusType)
      ensures loading == old(loading) && submitting == old(submitting)
    {
      selectedComplaint := c;
    }

    method EditComment(text: string)
      modifies this
      ensures comment == text
      ensures complaints == old(complaints) && selectedComplaint == old(selectedComplaint)
      ensures statusType == old(statusType) && loading == old(loading) && submitting == old(submitting)
    {
      comment := text;
    }

    /** One of the status buttons. */
    method ChooseStatus(status: string)
      requires status in StatusOptions
      modifies this
      ensures statusType == status
      ensures complaints == old(complaints) && selectedComplaint == old(selectedComplaint)
      ensures comment == old(comment) && loading == old(loading) && submitting == old(submitting)
    {
      statusType := status;
    }

    /** `disabled={!comment.trim() || submitting}` on the submit button. */
    function SubmitDisabled(): (r: bool)
      reads this
      ensures r <==> AllSpace(comment) || submitting
    {
      BlankIffAllSpace(comment);
      IsBlank(comment) || submitting
    }

    /** submitChangeStatus. A blank comment is refused before anything else. Otherwise the request is
        built from the selected complaint (reading the id of no selection throws inside the try, which
        counts as a failure) and `adminUserId`, the value getUserIdFromToken returned when the screen
        rendered; `posted` tells whether the call succeeded. Success clears the selection
        and the comment, resets the status to PENDING and asks for a re-fetch; failure keeps them. */
    method SubmitChangeStatus(adminUserId: JsValue, posted: bool) returns (request: Option<StatusRequest>, refetch: bool, notice: Notice)
      modifies this
      ensures complaints == old(complaints) && loading == old(loading)
      ensures IsBlank(old(comment)) ==>
        && request == None && !refetch && notice == ErrorToast("Please enter comment")
        && selectedComplaint == old(selectedComplaint) && comment == old(comment)
        && statusType == old(statusType) && submitting == old(submitting)
      ensures !IsBlank(old(comment)) ==> !submitting
      ensures !IsBlank(old(comment)) ==>
        request == (if old(selectedComplaint).Some?
                    then Some(StatusRequest(old(selectedComplaint).value.complaintsId, ToJsString(adminUserId), old(comment), old(statusType)))
                    else None)
      ensures !IsBlank(old(comment)) && request.Some? && posted ==>
        && selectedComplaint == None && comment == "" && statusType == DefaultStatus && refetch
        && notice == SuccessToast("\U{2705} Comment and status updated successfully")
      ensures !IsBlank(old(comment)) && (request.None? || !posted) ==>
        && selectedComplaint == old(selectedComplaint) && comment == old(comment)
        && statusType == old(statusType) && !refetch
        && notice == ErrorToast("\U{274C} Failed to update status")
    {
      if IsBlank(comment) {
        request, refetch, notice := None, false, ErrorToast("Please enter comment");
        return;
      }
      submitting := true;
      refetch := false;
      if selectedComplaint.None? {
        request := None;
        notice := ErrorToast("\U{274C} Failed to update status");
      } else {
        request := Some(StatusRequest(selectedComplaint.value.complaintsId, ToJsString(adminUserId), comment, statusType));
        if posted {
          notice := SuccessToast("\U{2705} Comment and status updated successfully");
          selectedComplaint := None;
          comment := "";
          statusType := DefaultStatus;
          refetch := true;
        } else {
          notice := ErrorToast("\U{274C} Failed to update status");
        }
      }
      submitting := false;
    }
  }
}

=== FILE: common.dfy ===
/** Small shared datatypes. */
module Common {

  /** A value that may be absent: JavaScript's null/undefined at the places where only presence matters. */
  datatype Option<+T> = None | Some(value: T)

  /** The notification a handler shows the user: a toast of some kind, a blocking alert, or nothing. */
  datatype Notice =
    | NoNotice
    | SuccessToast(message: string)
    | ErrorToast(message: string)
    | WarnToast(message: string)
    | Alert(message: string)
}

=== FILE: complaint_status.dfy ===
/** ComplaintStatus.jsx: the user's list of their own complaints, each with a collapsible status timeline. */
module ComplaintStatus {
  import opened Common
  import opened JsText
  import opened JsValues
  import opened Records
  import JwtUtils

  /** `complaint.comments || []`. */
  function AllComments(c: Complaint): (r: seq<Comment>)
    ensures c.comments.Some? ==> r == c.comments.value
    ensures c.comments.None? ==> r == []
  {
    if c.comments.Some? then c.comments.value else []
  }

  /** The timeline entries shown for a complaint: the whole timeline when it is the expanded one,
      otherwise only the latest comment (none for an empty timeline). Either way a suffix. */
  function VisibleComments(c: Complaint, expandedId: Option<int>): (r: seq<Comment>)
    ensures |r| <= |AllComments(c)| && r == AllComments(c)[|AllComments(c)| - |r|..]
    ensures expandedId == Some(c.complaintsId) ==> r == AllComments(c)
    ensures expandedId != Some(c.complaintsId) ==> |r| == (if AllComments(c) == [] then 0 else 1)
  {
    var comments := AllComments(c);
    if expandedId == Some(c.complaintsId) then comments
    else if |comments| > 0 then [comments[|comments| - 1]]
    else []
  }

  /** The "Show Full Timeline" / "Show Less" button is rendered only for timelines longer than one entry. */
  predicate HasTimelineToggle(c: Complaint)
  {
    |AllComments(c)| > 1
  }

  /** A collapsed card hides something exactly when it has a toggle. */
  lemma CollapsedHidesIffToggle(c: Complaint, expandedId: Option<int>)
    requires expandedId != Some(c.complaintsId)
    ensures |VisibleComments(c, expandedId)| < |AllComments(c)| <==> HasTimelineToggle(c)
  {
  }

  /** `comment.statusType || "SUBMITTED"`: a missing or empty status is shown as SUBMITTED. */
  function CommentStatusText(c: Comment): (r: string)
    ensures r != ""
    ensures c.statusType.Some? && c.statusType.value != "" ==> r == c.statusType.value
    ensures c.statusType.None? || c.statusType.value == "" ==> r == "SUBMITTED"
  {
    if c.statusType.Some? && c.statusType.value != "" then c.statusType.value else "SUBMITTED"
  }

  /** `complaints.filter(c => c.statusType?.toLowerCase() === wanted).length`. */
  function CountLower(data: seq<Complaint>, wanted: string): (r: nat)
    ensures r <= |data|
    ensures r == 0 <==> forall i :: 0 <= i < |data| ==> data[i].statusType.None? || ToLower(data[i].statusType.value) != wanted
  {
    if data == [] then 0
    else
      var last := data[|data| - 1];
      CountLower(data[..|data| - 1], wanted)
        + (if last.statusType.Some? && ToLower(last.statusType.value) == wanted then 1 else 0)
  }

  /** The in-progress and resolved summary cards together never exceed the total card. */
  lemma {:induction false} SummaryWithinTotal(data: seq<Complaint>)
    ensures CountLower(data, "inprogress") + CountLower(data, "resolved") <= |data|
  {
    if data != [] {
      SummaryWithinTotal(data[..|data| - 1]);
    }
  }

  /** Expanding one card and pressing its button again collapses it. */
  lemma ToggleTwiceRestoresCollapsed(expandedId: Option<int>, id: int)
    requires expandedId != Some(id)
    ensures Toggled(Toggled(expandedId, id), id) == None
  {
  }

  /** The button's new `expandedId`: collapse the expanded card, or expand this one (collapsing any other). */
  function Toggled(expandedId: Option<int>, id: int): (r: Option<int>)
    ensures expandedId == Some(id) ==> r == None
    ensures expandedId != Some(id) ==> r == Some(id)
  {
    if expandedId == Some(id) then None else Some(id)
  }

  class ComplaintStatusView {
    var complaints: seq<Complaint>
    var expandedId: Option<int>
    var loading: bool
    var refreshCount: nat

    constructor ()
      ensures complaints == [] && expandedId == None && loading && refreshCount == 0
    {
      complaints := [];
      expandedId := None;
      loading := true;
      refreshCount := 0;
    }

    /** fetchComplaints: the user id comes from the token inside the try; when that throws no request is
        made and the list stays. Otherwise `userIdText` is the path segment and `response` the outcome. */
    method FetchComplaints(storage: map<string, string>, parse: JwtUtils.JsonParser, response: Option<seq<Complaint>>)
      returns (userIdText: Option<string>)
      modifies this
      ensures !loading
      ensures userIdText == (var uid := JwtUtils.GetUserIdFromToken(storage, parse);
                             if uid.Threw? then None else Some(ToJsString(uid.value)))
      ensures userIdText.Some? && response.Some? ==> complaints == response.value
      ensures userIdText.None? || response.None? ==> complaints == old(complaints)
      ensures expandedId == old(expandedId) && refreshCount == old(refreshCount)
    {
      loading := true;
      var uid := JwtUtils.GetUserIdFromToken(storage, parse);
      if uid.Threw? {
        userIdText := None;
      } else {
        userIdText := Some(ToJsString(uid.value));
        if response.Some? {
          complaints := response.value;
        }
      }
      loading := false;
    }

    /** handleRefresh: counts the refresh, then fetches again. */
    method HandleRefresh(storage: map<string, string>, parse: JwtUtils.JsonParser, response: Option<seq<Complaint>>)
      returns (userIdText: Option<string>)
      modifies this
      ensures refreshCount == old(refreshCount) + 1
      ensures !loading
      ensures userIdText.Some? && response.Some? ==> complaints == response.value
      ensures userIdText.None? || response.None? ==> complaints == old(complaints)
      ensures expandedId == old(expandedId)
    {
      refreshCount := refreshCount + 1;
      userIdText := FetchComplaints(storage, parse, response);
    }

    /** The timeline button of one card. */
    method ToggleTimeline(c: Complaint)
      requires HasTimelineToggle(c)
      modifies this
      ensures expandedId == Toggled(old(expandedId), c.complaintsId)
      ensures complaints == old(complaints) && loading == old(loading) && refreshCount == old(refreshCount)
    {
      expandedId := Toggled(expandedId, c.complaintsId);
    }
  }
}

=== FILE: complaints.dfy ===
/** Complaints.jsx: the complaint form. The user id is taken from the stored token by a local decoder
    that, unlike getUserIdFromToken, catches every failure; the submitted record is the form with that id. */
module Complaints {
  import opened Common
  import opened JsValues
  import JwtUtils
  import Storage
  import Base64

  /** decodeJWT: the parsed second segment of the token, or null. A missing token is null too, because
      `null.split` throws inside the same try. */
  function DecodeJWT(token: Option<string>, parse: JwtUtils.JsonParser): (r: JsValue)
    ensures token.None? ==> r == Null
    ensures token.Some? && JwtUtils.DecodePayload(token.value, parse).Threw? ==> r == Null
    ensures token.Some? && JwtUtils.DecodePayload(token.value, parse).Returned? ==> r == JwtUtils.DecodePayload(token.value, parse).value
  {
    if token.None? then Null
    else
      var decoded := JwtUtils.DecodePayload(token.value, parse);
      if decoded.Threw? then Null else decoded.value
  }

  /** `decoded?.userId`: undefined when decoding failed. */
  function ExtractedUserId(decoded: JsValue): (r: JsValue)
    ensures decoded.Null? ==> r == Undefined
    ensures decoded.Obj? ==> r == (if "userId" in decoded.fields then decoded.fields["userId"] else Undefined)
  {
    OptionalProperty(decoded, "userId")
  }

  /** What `localStorage.getItem("jwtToken")` gives. */
  function StoredToken(storage: map<string, string>): (r: Option<string>)
    ensures r.Some? <==> Storage.TokenKey in storage
    ensures r.Some? ==> r.value == storage[Storage.TokenKey]
  {
    if Storage.TokenKey in storage then Some(storage[Storage.TokenKey]) else None
  }

  /** The two token readers agree wherever getUserIdFromToken returns normally on a usable token.
      Where it throws, the form's id is undefined instead; where there is no usable token (none, or ""),
      getUserIdFromToken gives null while the form's id is undefined. */
  lemma TokenReadersCompared(storage: map<string, string>, parse: JwtUtils.JsonParser)
    ensures var util := JwtUtils.GetUserIdFromToken(storage, parse);
            var extracted := ExtractedUserId(DecodeJWT(StoredToken(storage), parse));
            && (Storage.TokenKey !in storage || storage[Storage.TokenKey] == "" ==> util == Returned(Null) && extracted == Undefined)
            && (Storage.TokenKey in storage && storage[Storage.TokenKey] != "" && util.Returned? ==> extracted == util.value)
            && (util.Threw? ==> extracted == Undefined)
  {
    if Storage.TokenKey in storage && storage[Storage.TokenKey] == "" {
      assert JwtUtils.SecondSegment("") == None;
      Base64.AtobOfUndefinedThrows();
    }
  }

  /** The form state `formData`. */
  datatype FormData = FormData(
    isAnonymous: bool,
    categoryType: string,
    statusType: string,
    description: string,
    urgencyType: string,
    attachedUrl: string,
    userId: JsValue)

  /** The initial form: public, status "PENDING", no user id. */
  const InitialForm: FormData := FormData(false, "", "PENDING", "", "", "", Null)

  /** `{ ...formData, userId: extractedUserId }`: the submitted record. The id is attached even for an
      anonymous complaint. */
  function FinalData(form: FormData, extractedUserId: JsValue): (r: FormData)
    ensures r.userId == extractedUserId
    ensures r.isAnonymous == form.isAnonymous && r.categoryType == form.categoryType && r.statusType == form.statusType
    ensures r.description == form.description && r.urgencyType == form.urgencyType && r.attachedUrl == form.attachedUrl
  {
    form.(userId := extractedUserId)
  }

  /** The component's state and its handlers. */
  class ComplaintForm {
    var formData: FormData

    constructor ()
      ensures formData == InitialForm
    {
      formData := InitialForm;
    }

    /** handleFileUpload: records the chosen file's name; with no file chosen the form is unchanged. */
    method HandleFileUpload(fileName: Option<string>)
      modifies this
      ensures fileName.Some? ==> formData == old(formData).(attachedUrl := fileName.value)
      ensures fileName.None? ==> formData == old(formData)
    {
      if fileName.Some? {
        formData := formData.(attachedUrl := fileName.value);
      }
    }

    /** The "Anonymous" radio button. */
    method ChooseAnonymous()
      modifies this
      ensures formData == old(formData).(isAnonymous := true)
    {
      formData := formData.(isAnonymous := true);
    }

    /** The "Public" radio button. */
    method ChoosePublic()
      modifies this
      ensures formData == old(formData).(isAnonymous := false)
    {
      formData := formData.(isAnonymous := false);
    }

    method SelectCategory(value: string)
      modifies this
      ensures formData == old(formData).(categoryType := value)
    {
      formData := formData.(categoryType := value);
    }

    method EnterDescription(value: string)
      modifies this
      ensures formData == old(formData).(description := value)
    {
      formData := formData.(description := value);
    }

    method SelectUrgency(value: string)
      modifies this
      ensures formData == old(formData).(urgencyType := value)
    {
      formData := formData.(urgencyType := value);
    }

    /** handleSubmit: posts the final record and reports the outcome; the form itself is never reset. */
    method HandleSubmit(storage: map<string, string>, parse: JwtUtils.JsonParser, posted: bool)
      returns (sent: FormData, notice: Notice)
      ensures sent == FinalData(formData, ExtractedUserId(DecodeJWT(StoredToken(storage), parse)))
      ensures notice == if posted then SuccessToast("Complaint Added Successfully!") else ErrorToast("Failed to submit complaint.")
    {
      sent := FinalData(formData, ExtractedUserId(DecodeJWT(StoredToken(storage), parse)));
      notice := if posted then SuccessToast("Complaint Added Successfully!") else ErrorToast("Failed to submit complaint.");
    }
  }

  /** An anonymous complaint still carries the token's user id. */
  lemma AnonymousComplaintCarriesUserId(form: FormData, id: JsValue)
    requires form.isAnonymous
    ensures FinalData(form, id).isAnonymous && FinalData(form, id).userId == id
  {
  }
}

=== FILE: employee_panel.dfy ===
/** EmployeePanel.jsx: the employee's side menu (status view, own comments, logout) and the list of
    complaints assigned to them, grouped by category. */
module EmployeePanel {
  import opened Common
  import opened JsValues
  import opened Records
  import Storage
  import JwtUtils

  const StatusView: string := "STATUS"
  const CommentsView: string := "COMMENTS"
  const LogoutView: string := "Logout"
  const Views: set<string> := {StatusView, CommentsView, LogoutView}

  /** Where the logout sends the browser. */
  const LogoutTarget: string := "/"

  /** The keys the logout removes: only the credentials, not the token or the role. */
  const LogoutKeys: set<string> := {Storage.UsernameKey, Storage.PasswordKey}

  class EmployeePanelView {
    var complaintsByCategory: map<string, seq<Complaint>>
    var selectedComplaint: Option<Complaint>
    var activeView: string

    ghost predicate Valid()
      reads this
    {
      activeView in Views
    }

    /** The panel opens on the status view with no lists (the mount effect then fetches them). */
    constructor ()
      ensures Valid()
      ensures complaintsByCategory == map[] && selectedComplaint == None && activeView == StatusView
    {
      complaintsByCategory := map[];
      selectedComplaint := None;
      activeView := StatusView;
    }

    /** `(complaintsByCategory[category] || [])`: the list shown for a category, empty before any fetch. */
    function ListShown(category: string): (r: seq<Complaint>)
      reads this
      ensures category in complaintsByCategory ==> r == complaintsByCategory[category]
      ensures category !in complaintsByCategory ==> r == []
    {
      if category in complaintsByCategory then complaintsByCategory[category] else []
    }

    /** fetchEmployeeComplaints: the employee id comes from the token inside the try, so a token that
        makes getUserIdFromToken throw leaves the lists as they were, as does a failed request. On
        success every category gets the complaints of that category from the one response. */
    method FetchEmployeeComplaints(storage: map<string, string>, parse: JwtUtils.JsonParser,
                                   response: Option<seq<Complaint>>)
      returns (empIdText: Option<string>)
      modifies this
      ensures empIdText == (var uid := JwtUtils.GetUserIdFromToken(storage, parse);
                            if uid.Threw? then None else Some(ToJsString(uid.value)))
      ensures empIdText.Some? && response.Some? ==>
        && complaintsByCategory.Keys == CategoryKeys()
        && forall i :: 0 <= i < |Categories| ==>
             complaintsByCategory[Categories[i]] == InCategory(response.value, Categories[i])
      ensures empIdText.None? || response.None? ==> complaintsByCategory == old(complaintsByCategory)
      ensures selectedComplaint == old(selectedComplaint) && activeView == old(activeView)
    {
      var uid := JwtUtils.GetUserIdFromToken(storage, parse);
      if uid.Threw? {
        empIdText := None;
        return;
      }
      empIdText := Some(ToJsString(uid.value));
      if response.Some? {
        var grouped := GroupByCategory(response.value);
        complaintsByCategory := grouped;
      }
    }

    /** A menu click. The effect keyed on `activeView` runs only when the view actually changes, so the
        lists are re-fetched only when switching to STATUS from another view. Rendering the Logout view
        calls handleLogout: it removes the username and the password (the token and the role stay) and
        sends the browser to "/". */
    method SelectView(view: string, store: Storage.LocalStorage) returns (fetch: bool, navigateTo: Option<string>)
      requires Valid() && view in Views
      modifies this, store
      ensures Valid()
      ensures activeView == view
      ensures fetch <==> view == StatusView && old(activeView) != StatusView
      ensures view == LogoutView ==> store.items == old(store.items) - LogoutKeys && navigateTo == Some(LogoutTarget)
      ensures view != LogoutView ==> store.items == old(store.items) && navigateTo == None
      ensures complaintsByCategory == old(complaintsByCategory) && selectedComplaint == old(selectedComplaint)
    {
      fetch := view == StatusView && activeView != StatusView;
      activeView := view;
      navigateTo := None;
      if view == LogoutView {
        store.RemoveItem(Storage.UsernameKey);
        store.RemoveItem(Storage.PasswordKey);
        navigateTo := Some(LogoutTarget);
      }
    }

    /** "Change Status" on a card opens the update dialog; closing the dialog only clears the selection
        and does not re-fetch the lists. */
    method SelectComplaint(c: Option<Complaint>)
      modifies this
      ensures selectedComplaint == c
      ensures complaintsByCategory == old(complaintsByCategory) && activeView == old(activeView)
    {
      selectedComplaint := c;
    }
  }

  /** The logout leaves the session usable: a stored token survives it, so getUserIdFromToken still
      reads the same user afterwards. */
  lemma LogoutKeepsToken(items: map<string, string>, parse: JwtUtils.JsonParser)
    ensures Storage.TokenKey in items ==> Storage.TokenKey in items - LogoutKeys
    ensures JwtUtils.GetUserIdFromToken(items - LogoutKeys, parse) == JwtUtils.GetUserIdFromToken(items, parse)
  {
    assert Storage.TokenKey !in LogoutKeys;
    var after := items - LogoutKeys;
    assert Storage.TokenKey in after <==> Storage.TokenKey in items;
    if Storage.TokenKey in items {
      assert after[Storage.TokenKey] == items[Storage.TokenKey];
    }
  }
}

=== FILE: escalate_complaints.dfy ===
/** EscalateComplaints.jsx: the admin screen that lists complaints per category and escalates the
    selected one with a chosen status. */
module EscalateComplaints {
  import opened Common
  import opened JsText
  import opened Records
  import StatusDisplay

  /** The statuses the escalation dialog offers, in display order. */
  const StatusOptions: seq<string> := ["Open", "InProgress", "Resolved", "PENDING", "Escalated"]

  /** The status chosen when the screen opens; nothing resets it later. */
  const DefaultStatus: string := "Escalated"

  const EscalatedToast: string := "\U{2705} Complaint escalated successfully!"
  const TooRecentToast: string := "\U{274C} Complaint must be a week older for escalation"

  /** The escalation request: the selection (null included) and the chosen status. */
  datatype EscalateRequest = EscalateRequest(complaintId: Option<int>, statusType: string)

  /** `disabled={c.statusType === 'Escalated'}`: only the exact spelling disables the button. */
  predicate EscalateDisabled(c: Complaint)
  {
    c.statusType == Some("Escalated")
  }

  /** The icon beside each option of the dialog: an exact comparison with three cases. */
  function OptionIcon(status: string): (r: string)
    ensures status !in {"Escalated", "Resolved", "InProgress"} <==> r == "\U{1F4C4}"
  {
    if status == "Escalated" then "\U{1F6A8}"
    else if status == "Resolved" then "\U{2705}"
    else if status == "InProgress" then "\U{26A1}"
    else "\U{1F4C4}"
  }

  /** A complaint stored as "escalated" is coloured as escalated, yet its escalate button stays enabled:
      the colour switch lower-cases, the button compares exactly. */
  lemma EscalatedSpellingMatters(c: Complaint)
    requires c.statusType == Some("escalated")
    ensures StatusDisplay.StatusColor(c.statusType) == StatusDisplay.StatusColor(Some("Escalated"))
    ensures !EscalateDisabled(c)
  {
    assert ToLower("escalated") == "escalated";
    assert ToLower("Escalated") == "escalated";
  }

  /** The option icon and the shared status icon disagree on PENDING. */
  lemma PendingIconsDiffer()
    ensures OptionIcon("PENDING") != StatusDisplay.StatusIcon(Some("PENDING"))
  {
    assert ToLower("PENDING") == "pending";
  }

  class EscalateView {
    var complaintsByCategory: map<string, seq<Complaint>>
    var selectedComplaintId: Option<int>
    var selectedStatus: string
    var loading: bool

    /** The first render: no lists yet (not even empty ones), no selection, "Escalated" chosen. */
    constructor ()
      ensures complaintsByCategory == map[] && selectedComplaintId == None
      ensures selectedStatus == DefaultStatus && loading
    {
      complaintsByCategory := map[];
      selectedComplaintId := None;
      selectedStatus := DefaultStatus;
      loading := true;
    }

    /** `{complaintsByCategory[category]?.length || 0} complaints`: the count is 0 before any list arrived. */
    function CountShown(category: string): (r: nat)
      reads this
      ensures category !in complaintsByCategory ==> r == 0
      ensures category in complaintsByCategory ==> r == |complaintsByCategory[category]|
    {
      if category in complaintsByCategory then |complaintsByCategory[category]| else 0
    }

    /** `?.length === 0`: the "no complaints" block appears only for a list that arrived empty, not for
        one that has not arrived. */
    function ShowsNoComplaints(category: string): (r: bool)
      reads this
      ensures r <==> category in complaintsByCategory && complaintsByCategory[category] == []
      ensures r ==> CountShown(category) == 0
    {
      category in complaintsByCategory && |complaintsByCategory[category]| == 0
    }

    /** `{selectedComplaintId && (...)}`: the dialog needs a truthy id, so a complaint numbered 0 never
        opens it. */
    function DialogShown(): (r: bool)
      reads this
      ensures r <==> selectedComplaintId.Some? && selectedComplaintId.value != 0
    {
      match selectedComplaintId
      case None => false
      case Some(id) => id != 0
    }

    /** fetchAllCategories: response i becomes the list of category i; a failed join keeps the lists. */
    method FetchAllCategories(responses: Option<seq<seq<Complaint>>>)
      requires responses.Some? ==> |responses.value| == |Categories|
      modifies this
      ensures responses.Some? ==>
        && complaintsByCategory.Keys == CategoryKeys()
        && forall i :: 0 <= i < |Categories| ==> complaintsByCategory[Categories[i]] == responses.value[i]
      ensures responses.None? ==> complaintsByCategory == old(complaintsByCategory)
      ensures !loading
      ensures selectedComplaintId == old(selectedComplaintId) && selectedStatus == old(selectedStatus)
    {
      loading := true;
      if responses.Some? {
        var data := FillByIndex(responses.value);
        complaintsByCategory := data;
      }
      loading := false;
    }

    /** The escalate button of one complaint (only reachable while it is enabled). */
    method SelectComplaint(c: Complaint)
      requires !EscalateDisabled(c)
      modifies this
      ensures selectedComplaintId == Some(c.complaintsId)
      ensures complaintsByCategory == old(complaintsByCategory) && selectedStatus == old(selectedStatus)
      ensures loading == old(loading)
    {
      selectedComplaintId := Some(c.complaintsId);
    }

    /** The dialog's cancel button. */
    method CancelSelection()
      modifies this
      ensures selectedComplaintId == None && !DialogShown()
      ensures complaintsByCategory == old(complaintsByCategory) && selectedStatus == old(selectedStatus)
      ensures loading == old(loading)
    {
      selectedComplaintId := None;
    }

    method ChooseStatus(status: string)
      requires status in StatusOptions
      modifies this
      ensures selectedStatus == status
      ensures complaintsByCategory == old(complaintsByCategory) && selectedComplaintId == old(selectedComplaintId)
      ensures loading == old(loading)
    {
      selectedStatus := status;
    }

    /** escalateComplaint: the request carries the current selection and status. Success clears the
        selection and asks for a re-fetch; a refusal (the backend's week-old rule) keeps the dialog open.
        The chosen status is never reset. */
    method EscalateComplaint(posted: bool) returns (request: EscalateRequest, refetch: bool, notice: Notice)
      modifies this
      ensures request == EscalateRequest(old(selectedComplaintId), old(selectedStatus))
      ensures posted ==> selectedComplaintId == None && refetch && notice == SuccessToast(EscalatedToast)
      ensures !posted ==>
        selectedComplaintId == old(selectedComplaintId) && !refetch && notice == ErrorToast(TooRecentToast)
      ensures selectedStatus == old(selectedStatus)
      ensures complaintsByCategory == old(complaintsByCategory) && loading == old(loading)
    {
      request := EscalateRequest(selectedComplaintId, selectedStatus);
      if posted {
        notice := SuccessToast(EscalatedToast);
        selectedComplaintId := None;
        refetch := true;
      } else {
        notice := ErrorToast(TooRecentToast);
        refetch := false;
      }
    }
  }
}

=== FILE: faq.dfy ===
/** FAQ.jsx: the landing page's accordion of questions, at most one of which is open, each headed by a
    two-digit number. */
module Faq {
  import opened Common
  import opened JsText

  /** The number of questions the accordion lists. */
  const FaqCount: nat := 8

  /** `String(i + 1).padStart(2, '0')`: the number shown before question i (counted from 0). */
  function QuestionNumber(i: nat): (r: string)
    ensures |r| >= 2
    ensures forall k :: 0 <= k < |r| ==> IsDigit(r[k])
  {
    PadStart(NatToString(i + 1), 2, '0')
  }

  /** The first nine questions get a leading zero ("01" to "09"); from the tenth on the number is unpadded. */
  lemma QuestionNumberShape(i: nat)
    ensures i + 1 < 10 ==> QuestionNumber(i) == ['0', DigitChar(i + 1)]
    ensures i + 1 >= 10 ==> QuestionNumber(i) == NatToString(i + 1)
  {
    var digits := NatToString(i + 1);
    if i + 1 < 10 {
      assert digits == [DigitChar(i + 1)];
    } else {
      assert |digits| >= 2;
    }
  }

  /** A leading zero adds nothing to the value of a digit string. */
  lemma {:induction false} LeadingZeroValue(s: string)
    requires forall k :: 0 <= k < |s| ==> IsDigit(s[k])
    ensures DigitsValue("0" + s) == DigitsValue(s)
  {
    if s != [] {
      var t := "0" + s;
      assert t[..|t| - 1] == "0" + s[..|s| - 1];
      LeadingZeroValue(s[..|s| - 1]);
    }
  }

  /** Reading the displayed number back gives the question's position counted from 1, so distinct
      questions carry distinct numbers. */
  lemma QuestionNumberValue(i: nat)
    ensures DigitsValue(QuestionNumber(i)) == i + 1
  {
    QuestionNumberShape(i);
    DigitsValueOfNatToString(i + 1);
    if i + 1 < 10 {
      LeadingZeroValue(NatToString(i + 1));
      assert QuestionNumber(i) == "0" + NatToString(i + 1);
    }
  }

  /** Distinct questions are numbered differently. */
  lemma QuestionNumbersDistinct(i: nat, j: nat)
    requires i != j
    ensures QuestionNumber(i) != QuestionNumber(j)
  {
    QuestionNumberValue(i);
    QuestionNumberValue(j);
  }

  class Accordion {
    /** The open question, None when all are closed. */
    var activeIndex: Option<nat>

    ghost predicate Valid()
      reads this
    {
      activeIndex.Some? ==> activeIndex.value < FaqCount
    }

    constructor ()
      ensures Valid() && activeIndex == None
    {
      activeIndex := None;
    }

    predicate IsOpen(i: nat)
      reads this
    {
      activeIndex == Some(i)
    }

    /** toggleFAQ: clicking the open question closes it; clicking any other opens it and closes the rest. */
    method ToggleFaq(i: nat)
      requires Valid() && i < FaqCount
      modifies this
      ensures Valid()
      ensures old(IsOpen(i)) ==> activeIndex == None
      ensures !old(IsOpen(i)) ==> IsOpen(i)
      ensures forall j :: j != i ==> !IsOpen(j)
    {
      if activeIndex == Some(i) {
        activeIndex := None;
      } else {
        activeIndex := Some(i);
      }
    }
  }

  /** Two clicks on a question starting from a closed accordion leave it closed again. */
  method ToggleTwiceCloses(a: Accordion, i: nat)
    requires a.Valid() && a.activeIndex == None && i < FaqCount
    modifies a
    ensures a.activeIndex == None
  {
    a.ToggleFaq(i);
    a.ToggleFaq(i);
  }
}

=== FILE: feedback.dfy ===
/** Feedback.jsx: the user's rating-and-feedback form. */
module Feedback {
  import opened Common
  import opened JsValues
  import JwtUtils

  /** The values of the rating select; "" is its "Select Rating" placeholder. */
  const RatingValues: set<string> := {"", "1", "2", "3", "4", "5"}

  const MissingInputWarning: string := "\U{26A0}\U{FE0F} Please provide rating and feedback"
  const SubmittedToast: string := "\U{2705} Feedback submitted successfully!"
  const FailedToast: string := "\U{274C} Failed to submit feedback"

  /** The body of the feedback request; the user id goes into the path through String(). */
  datatype FeedbackRequest = FeedbackRequest(userIdText: string, feedbackDesc: string, ratings: string)

  /** `!feedbackDesc || !rating`: only the empty string counts as missing, so a feedback made of
      spaces passes. */
  predicate MissingInput(feedbackDesc: string, rating: string)
  {
    feedbackDesc == "" || rating == ""
  }

  class FeedbackForm {
    var feedbackDesc: string
    var rating: string
    var loading: bool

    ghost predicate Valid()
      reads this
    {
      rating in RatingValues
    }

    constructor ()
      ensures Valid()
      ensures feedbackDesc == "" && rating == "" && !loading
    {
      feedbackDesc := "";
      rating := "";
      loading := false;
    }

    /** The rating select's onChange. */
    method SelectRating(value: string)
      requires value in RatingValues
      modifies this
      ensures Valid()
      ensures rating == value && feedbackDesc == old(feedbackDesc) && loading == old(loading)
    {
      rating := value;
    }

    /** The textarea's onChange. */
    method EditFeedback(value: string)
      modifies this
      ensures feedbackDesc == value && rating == old(rating) && loading == old(loading)
    {
      feedbackDesc := value;
    }

    /** submitFeedback. Missing input only raises a warning. Otherwise the user id is read inside the
        try, so a token that makes getUserIdFromToken throw ends like a failed request. Success clears
        both fields; failure keeps them; the button is re-enabled in both cases. */
    method SubmitFeedback(storage: map<string, string>, parse: JwtUtils.JsonParser, posted: bool)
      returns (request: Option<FeedbackRequest>, notice: Notice)
      requires Valid()
      modifies this
      ensures Valid()
      ensures MissingInput(old(feedbackDesc), old(rating)) ==>
        && request == None && notice == WarnToast(MissingInputWarning)
        && feedbackDesc == old(feedbackDesc) && rating == old(rating) && loading == old(loading)
      ensures !MissingInput(old(feedbackDesc), old(rating)) ==>
        && !loading
        && request == (var uid := JwtUtils.GetUserIdFromToken(storage, parse);
                       if uid.Threw? then None
                       else Some(FeedbackRequest(ToJsString(uid.value), old(feedbackDesc), old(rating))))
        && (request.Some? && posted ==> feedbackDesc == "" && rating == "" && notice == SuccessToast(SubmittedToast))
        && (request.None? || !posted ==>
              feedbackDesc == old(feedbackDesc) && rating == old(rating) && notice == ErrorToast(FailedToast))
    {
      if MissingInput(feedbackDesc, rating) {
        request, notice := None, WarnToast(MissingInputWarning);
        return;
      }
      loading := true;
      var uid := JwtUtils.GetUserIdFromToken(storage, parse);
      if uid.Threw? {
        request := None;
      } else {
        request := Some(FeedbackRequest(ToJsString(uid.value), feedbackDesc, rating));
      }
      if request.Some? && posted {
        notice := SuccessToast(SubmittedToast);
        feedbackDesc := "";
        rating := "";
      } else {
        notice := ErrorToast(FailedToast);
      }
      loading := false;
    }
  }
}

=== FILE: feedback_landing.dfy ===
/** FeedbackLanding.jsx: the landing page's carousel of user feedback, which advances on a timer,
    pauses on interaction and shows the current slide between its two neighbours. */
module FeedbackLanding {
  import opened Common
  import opened JsText

  /** A feedback entry as the carousel reads it. */
  datatype FeedbackItem = FeedbackItem(feedbackId: int, ratings: int, username: Option<string>)

  /** One of the three rendered slides: the entry, its index in the list and its place (-1, 0 or 1). */
  datatype Slide = Slide(item: FeedbackItem, index: nat, position: int)

  /** The number of stars every rating is drawn with. */
  const StarCount: nat := 5

  /** JavaScript's `%`, which keeps the sign of the dividend. */
  function JsRem(a: int, b: int): (r: int)
    requires b > 0
    ensures a >= 0 ==> r == a % b
    ensures a < 0 ==> -b < r <= 0
  {
    if a >= 0 then a % b else -((-a) % b)
  }

  /** A remainder of a number up to twice the divisor takes at most two subtractions. */
  lemma RemainderBelowTwice(a: int, n: int)
    requires n > 0 && 0 <= a <= 2 * n
    ensures a % n == if a < n then a else if a < 2 * n then a - n else 0
  {
    if a >= n {
      assert (a - n) % n == a % n by {
        assert a == (a - n) + n;
      }
      if a == 2 * n {
        RemainderBelowTwice(a - n, n);
      }
    }
  }

  /** `(prev + 1) % feedbacks.length`. */
  function NextIndex(i: nat, n: nat): (r: nat)
    requires i < n
    ensures r < n
    ensures r == if i + 1 == n then 0 else i + 1
  {
    RemainderBelowTwice(i + 1, n);
    JsRem(i + 1, n)
  }

  /** `(prev - 1 + feedbacks.length) % feedbacks.length`: the dividend is never negative, so JavaScript's
      remainder agrees with the mathematical one. */
  function PrevIndex(i: nat, n: nat): (r: nat)
    requires i < n
    ensures r < n
    ensures r == if i == 0 then n - 1 else i - 1
  {
    RemainderBelowTwice(i - 1 + n, n);
    JsRem(i - 1 + n, n)
  }

  /** The previous button undoes the next button, and the other way round. */
  lemma PrevUndoesNext(i: nat, n: nat)
    requires i < n
    ensures PrevIndex(NextIndex(i, n), n) == i
    ensures NextIndex(PrevIndex(i, n), n) == i
  {
  }

  /** `(currentIndex + position + total) % total` for a slide place. */
  function SlideIndex(current: nat, position: int, total: nat): (r: nat)
    requires current < total && -1 <= position <= 1
    ensures r < total
  {
    JsRem(current + position + total, total)
  }

  /** The outer slides are the neighbours the arrows move to, and the middle one is the current entry. */
  lemma SlidesAreNeighbours(current: nat, total: nat)
    requires current < total
    ensures SlideIndex(current, -1, total) == PrevIndex(current, total)
    ensures SlideIndex(current, 0, total) == current
    ensures SlideIndex(current, 1, total) == NextIndex(current, total)
  {
    RemainderBelowTwice(current + total, total);
    RemainderBelowTwice(current + 1 + total, total);
  }

  /** With a single entry all three slides show it; with two, both sides show the other one. */
  lemma FewEntriesRepeat(current: nat, total: nat)
    requires current < total <= 2
    ensures total == 1 ==> SlideIndex(current, -1, total) == 0 && SlideIndex(current, 1, total) == 0
    ensures total == 2 ==> SlideIndex(current, -1, total) == SlideIndex(current, 1, total) == 1 - current
  {
    SlidesAreNeighbours(current, total);
  }

  /** renderStars: five stars, the first `rating` of them filled (none for a rating below 1). */
  function RenderStars(rating: int): (stars: seq<bool>)
    ensures |stars| == StarCount
    ensures forall k :: 0 <= k < StarCount ==> (stars[k] <==> k < rating)
  {
    seq(StarCount, k requires 0 <= k < StarCount => k < rating)
  }

  function CountFilled(stars: seq<bool>): nat
  {
    if stars == [] then 0 else CountFilled(stars[..|stars| - 1]) + (if stars[|stars| - 1] then 1 else 0)
  }

  /** A prefix of filled stars followed by empty ones has exactly as many filled stars as its length. */
  lemma {:induction false} CountFilledPrefix(stars: seq<bool>, filled: nat)
    requires filled <= |stars|
    requires forall k :: 0 <= k < |stars| ==> (stars[k] <==> k < filled)
    ensures CountFilled(stars) == filled
  {
    if |stars| > 0 {
      var last := |stars| - 1;
      if filled == |stars| {
        CountFilledPrefix(stars[..last], last);
      } else {
        CountFilledPrefix(stars[..last], filled);
      }
    }
  }

  /** The number of filled stars is the rating clamped to 0..5. */
  lemma FilledStarsIsClampedRating(rating: int)
    ensures CountFilled(RenderStars(rating)) == if rating < 0 then 0 else if rating > 5 then 5 else rating
  {
    var clamped: nat := if rating < 0 then 0 else if rating > 5 then 5 else rating;
    CountFilledPrefix(RenderStars(rating), clamped);
  }

  /** The avatar letter: the upper-cased first letter of the user name, or "U" when there is none. */
  function AvatarInitial(username: Option<string>): (r: string)
    ensures |r| == 1
    ensures username.None? || username.value == "" ==> r == "U"
    ensures username.Some? && username.value != "" ==> r[0] == UpperChar(username.value[0])
  {
    if username.Some? && |username.value| > 0 then [UpperChar(username.value[0])] else "U"
  }

  class Carousel {
    var feedbacks: seq<FeedbackItem>
    var loading: bool
    var currentIndex: nat
    var isPaused: bool

    /** The current index always names an entry once there are entries. */
    ghost predicate Valid()
      reads this
    {
      |feedbacks| > 0 ==> currentIndex < |feedbacks|
    }

    constructor ()
      ensures Valid()
      ensures feedbacks == [] && loading && currentIndex == 0 && !isPaused
    {
      feedbacks := [];
      loading := true;
      currentIndex := 0;
      isPaused := false;
    }

    /** fetchAllFeedback, run once on mount: the list arrives (or stays empty) and loading ends. */
    method FetchAllFeedback(response: Option<seq<FeedbackItem>>)
      requires Valid() && loading && currentIndex == 0
      modifies this
      ensures Valid()
      ensures !loading && currentIndex == 0 && isPaused == old(isPaused)
      ensures response.Some? ==> feedbacks == response.value
      ensures response.None? ==> feedbacks == old(feedbacks)
    {
      if response.Some? {
        feedbacks := response.value;
      }
      loading := false;
    }

    /** One tick of the four-second interval, which runs only while there are entries and no pause. */
    method AutoSlide()
      requires Valid() && |feedbacks| > 0 && !isPaused
      modifies this
      ensures Valid()
      ensures currentIndex == NextIndex(old(currentIndex), |old(feedbacks)|)
      ensures feedbacks == old(feedbacks) && loading == old(loading) && !isPaused
    {
      currentIndex := NextIndex(currentIndex, |feedbacks|);
    }

    /** handleNext: the next entry, and a pause that the five-second timeout lifts. */
    method HandleNext()
      requires Valid() && |feedbacks| > 0
      modifies this
      ensures Valid()
      ensures currentIndex == NextIndex(old(currentIndex), |old(feedbacks)|) && isPaused
      ensures feedbacks == old(feedbacks) && loading == old(loading)
    {
      currentIndex := NextIndex(currentIndex, |feedbacks|);
      isPaused := true;
    }

    /** handlePrev. */
    method HandlePrev()
      requires Valid() && |feedbacks| > 0
      modifies this
      ensures Valid()
      ensures currentIndex == PrevIndex(old(currentIndex), |old(feedbacks)|) && isPaused
      ensures feedbacks == old(feedbacks) && loading == old(loading)
    {
      currentIndex := PrevIndex(currentIndex, |feedbacks|);
      isPaused := true;
    }

    /** goToSlide from one of the indicator dots. */
    method GoToSlide(index: nat)
      requires Valid() && index < |feedbacks|
      modifies this
      ensures Valid()
      ensures currentIndex == index && isPaused
      ensures feedbacks == old(feedbacks) && loading == old(loading)
    {
      currentIndex := index;
      isPaused := true;
    }

    /** The pause flag set by the mouse entering or leaving, and cleared by the timeout after a click. */
    method SetPaused(paused: bool)
      requires Valid()
      modifies this
      ensures Valid()
      ensures isPaused == paused
      ensures feedbacks == old(feedbacks) && loading == old(loading) && currentIndex == old(currentIndex)
    {
      isPaused := paused;
    }

    /** getVisibleSlides: the loop over positions -1, 0 and 1 (reached only with entries to show). */
    method GetVisibleSlides() returns (slides: seq<Slide>)
      requires Valid() && |feedbacks| > 0
      ensures |slides| == 3
      ensures forall k :: 0 <= k < 3 ==>
        && slides[k].position == k - 1
        && slides[k].index == SlideIndex(currentIndex, k - 1, |feedbacks|)
        && slides[k].item == feedbacks[slides[k].index]
      ensures slides[1].index == currentIndex
    {
      var total := |feedbacks|;
      slides := [];
      var i := -1;
      while i <= 1
        invariant -1 <= i <= 2
        invariant |slides| == i + 1
        invariant forall k :: 0 <= k < |slides| ==>
          && slides[k].position == k - 1
          && slides[k].index == SlideIndex(currentIndex, k - 1, total)
          && slides[k].item == feedbacks[slides[k].index]
      {
        var index := SlideIndex(currentIndex, i, total);
        slides := slides + [Slide(feedbacks[index], index, i)];
        i := i + 1;
      }
      SlidesAreNeighbours(currentIndex, total);
    }
  }
}

=== FILE: js_text.dfy ===
/** JavaScript string operations the components rely on: trim, ASCII case mapping,
    integer-to-decimal conversion and padStart. */
module JsText {

  /** The characters String.prototype.trim removes: ECMAScript WhiteSpace and LineTerminator. */
  predicate IsJsSpace(c: char)
  {
    || c == '\t' || c == '\n' || c == '\U{B}' || c == '\U{C}' || c == '\r' || c == ' '
    || c == '\U{A0}' || c == '\U{1680}' || ('\U{2000}' <= c <= '\U{200A}')
    || c == '\U{2028}' || c == '\U{2029}' || c == '\U{202F}' || c == '\U{205F}'
    || c == '\U{3000}' || c == '\U{FEFF}'
  }

  /** Every character of s is white space (vacuously true of ""). */
  predicate AllSpace(s: string)
  {
    forall i :: 0 <= i < |s| ==> IsJsSpace(s[i])
  }

  /** Number of white-space characters at the start of s. */
  function LeadingSpaces(s: string): (k: nat)
    ensures k <= |s|
    ensures AllSpace(s[..k])
    ensures k < |s| ==> !IsJsSpace(s[k])
  {
    if s == [] || !IsJsSpace(s[0]) then 0
    else
      var k' := LeadingSpaces(s[1..]);
      assert s[1..][..k'] == s[1..k' + 1];
      1 + k'
  }

  /** Number of white-space characters at the end of s. */
  function TrailingSpaces(s: string): (k: nat)
    ensures k <= |s|
    ensures AllSpace(s[|s| - k..])
    ensures k < |s| ==> !IsJsSpace(s[|s| - 1 - k])
  {
    if s == [] || !IsJsSpace(s[|s| - 1]) then 0
    else
      var k' := TrailingSpaces(s[..|s| - 1]);
      assert s[..|s| - 1][|s| - 1 - k'..] == s[|s| - 1 - k'..|s| - 1];
      1 + k'
  }

  /** String.prototype.trim: s without its leading and trailing white space. */
  function Trim(s: string): (r: string)
    ensures |r| <= |s|
    ensures LeadingSpaces(s) + |r| <= |s| && r == s[LeadingSpaces(s)..LeadingSpaces(s) + |r|]
    ensures r != [] ==> !IsJsSpace(r[0]) && !IsJsSpace(r[|r| - 1])
    ensures AllSpace(s[LeadingSpaces(s) + |r|..])
  {
    var a := LeadingSpaces(s);
    var t := s[a..];
    var b := TrailingSpaces(t);
    assert s[a + (|t| - b)..] == t[|t| - b..];
    t[..|t| - b]
  }

  /** The components' `!s.trim()`: the trimmed string is empty, hence falsy. */
  predicate IsBlank(s: string)
  {
    Trim(s) == ""
  }

  /** A string is blank exactly when it consists of white space only. */
  lemma BlankIffAllSpace(s: string)
    ensures IsBlank(s) <==> AllSpace(s)
  {
    var a := LeadingSpaces(s);
    var t := s[a..];
    var b := TrailingSpaces(t);
    assert Trim(s) == t[..|t| - b];
    // All white space: the leading run covers the whole string.
    assert AllSpace(s) ==> a == |s|;
    // Blank: the trailing run covers t, so t starts with white space unless it is empty,
    // and the leading run cannot stop in front of a space.
    assert IsBlank(s) ==> b == |t| && t[|t| - b..] == t;
    assert |t| > 0 ==> t[0] == s[a];
    assert IsBlank(s) ==> a == |s| && s[..a] == s;
  }

  /** String.prototype.toLowerCase restricted to ASCII letters. */
  function LowerChar(c: char): char
  {
    if 'A' <= c <= 'Z' then (c as int + 32) as char else c
  }

  /** String.prototype.toUpperCase restricted to ASCII letters. */
  function UpperChar(c: char): char
  {
    if 'a' <= c <= 'z' then (c as int - 32) as char else c
  }

  /** s.toLowerCase(), ASCII letters only. */
  function ToLower(s: string): (r: string)
    ensures |r| == |s|
    ensures forall i :: 0 <= i < |s| ==> r[i] == LowerChar(s[i])
    ensures forall i :: 0 <= i < |s| ==> !('A' <= r[i] <= 'Z')
  {
    seq(|s|, i requires 0 <= i < |s| => LowerChar(s[i]))
  }

  /** s.toUpperCase(), ASCII letters only. */
  function ToUpper(s: string): (r: string)
    ensures |r| == |s|
    ensures forall i :: 0 <= i < |s| ==> r[i] == UpperChar(s[i])
    ensures forall i :: 0 <= i < |s| ==> !('a' <= r[i] <= 'z')
  {
    seq(|s|, i requires 0 <= i < |s| => UpperChar(s[i]))
  }

  /** Lower-casing twice is lower-casing once, so a lower-case switch label is hit by every casing of it. */
  lemma ToLowerIdempotent(s: string)
    ensures ToLower(ToLower(s)) == ToLower(s)
  {
  }

  /** Two strings that differ only in the case of ASCII letters lower-case alike. */
  predicate SameIgnoringCase(s: string, t: string)
  {
    ToLower(s) == ToLower(t)
  }

  /** The decimal digit character for 0 <= d < 10. */
  function DigitChar(d: nat): (c: char)
    requires d < 10
    ensures '0' <= c <= '9'
  {
    ('0' as int + d) as char
  }

  predicate IsDigit(c: char)
  {
    '0' <= c <= '9'
  }

  /** String(n) for a non-negative integer n: its decimal digits without leading zeros. */
  function NatToString(n: nat): (r: string)
    ensures |r| >= 1
    ensures forall i :: 0 <= i < |r| ==> IsDigit(r[i])
    ensures r[0] == '0' ==> n == 0
    ensures n < 10 <==> |r| == 1
  {
    if n < 10 then [DigitChar(n)] else NatToString(n / 10) + [DigitChar(n % 10)]
  }

  /** String(i) for an integer i: a minus sign before the digits of a negative number. */
  function IntToString(i: int): (r: string)
    ensures i < 0 <==> (|r| > 0 && r[0] == '-')
  {
    if i < 0 then "-" + NatToString(-i) else NatToString(i)
  }

  /** The value of a string of decimal digits. */
  function DigitsValue(s: string): nat
    requires forall i :: 0 <= i < |s| ==> IsDigit(s[i])
  {
    if s == [] then 0
    else
      var last := s[|s| - 1];
      assert IsDigit(last);
      10 * DigitsValue(s[..|s| - 1]) + (last as int - '0' as int)
  }

  /** Reading the decimal digits back gives the number: NatToString loses nothing. */
  lemma {:induction false} DigitsValueOfNatToString(n: nat)
    ensures DigitsValue(NatToString(n)) == n
  {
    if n >= 10 {
      var r := NatToString(n);
      assert r[..|r| - 1] == NatToString(n / 10);
      DigitsValueOfNatToString(n / 10);
    }
  }

  /** NatToString is one-to-one. */
  lemma NatToStringInjective(m: nat, n: nat)
    requires NatToString(m) == NatToString(n)
    ensures m == n
  {
    DigitsValueOfNatToString(m);
    DigitsValueOfNatToString(n);
  }

  /** String.prototype.padStart(len, fill) with a one-character fill. */
  function PadStart(s: string, len: nat, fill: char): (r: string)
    ensures |r| == if |s| >= len then |s| else len
    ensures r[|r| - |s|..] == s
    ensures forall i :: 0 <= i < |r| - |s| ==> r[i] == fill
  {
    if |s| >= len then s else seq(len - |s|, _ => fill) + s
  }
}

=== FILE: js_values.dfy ===
/** The JavaScript values the components read from JSON and from local storage, and the few
    language operations applied to them: property access, `?.` and String(). */
module JsValues {
  import opened Common
  import JsText

  /** A JSON-shaped JavaScript value. Numbers are integers in this model. */
  datatype JsValue =
    | Undefined
    | Null
    | Bool(b: bool)
    | Num(n: int)
    | Str(s: string)
    | Arr(items: seq<JsValue>)
    | Obj(fields: map<string, JsValue>)

  /** How an expression finishes: with a value, or by throwing an error of the named kind. */
  datatype Completion<+T> = Returned(value: T) | Threw(error: string)

  const TypeError: string := "TypeError"
  const SyntaxError: string := "SyntaxError"
  const InvalidCharacterError: string := "InvalidCharacterError"

  /** `v[key]` for an own data property `key`: reading a property of null or undefined throws a
      TypeError; an object yields its field or undefined; other values have no such property. */
  function GetProperty(v: JsValue, key: string): (r: Completion<JsValue>)
    ensures r.Threw? <==> v.Undefined? || v.Null?
    ensures r.Returned? && r.value != Undefined ==> v.Obj? && key in v.fields && r.value == v.fields[key]
    ensures v.Obj? && key in v.fields ==> r == Returned(v.fields[key])
    ensures !v.Obj? && !v.Undefined? && !v.Null? ==> r == Returned(Undefined)
  {
    match v
    case Undefined => Threw(TypeError)
    case Null => Threw(TypeError)
    case Obj(fields) => Returned(if key in fields then fields[key] else Undefined)
    case _ => Returned(Undefined)
  }

  /** `v?.[key]`: undefined instead of throwing when v is null or undefined. */
  function OptionalProperty(v: JsValue, key: string): (r: JsValue)
    ensures GetProperty(v, key).Returned? ==> r == GetProperty(v, key).value
    ensures v.Undefined? || v.Null? ==> r == Undefined
  {
    if v.Undefined? || v.Null? then Undefined else GetProperty(v, key).value
  }

  /** String(v), the conversion localStorage.setItem applies to the value it stores. */
  function ToJsString(v: JsValue): (r: string)
    ensures v.Str? ==> r == v.s
    ensures v.Undefined? ==> r == "undefined"
    ensures v.Null? ==> r == "null"
    ensures v.Arr? ==> r == JoinItems(v.items)
    ensures v.Bool? ==> r == (if v.b then "true" else "false")
    ensures v.Num? ==> r == JsText.IntToString(v.n)
    ensures v.Obj? ==> r == "[object Object]"
  {
    match v
    case Undefined => "undefined"
    case Null => "null"
    case Bool(b) => if b then "true" else "false"
    case Num(n) => JsText.IntToString(n)
    case Str(s) => s
    case Arr(items) => JoinItems(items)
    case Obj(_) => "[object Object]"
  }

  /** Array.prototype.join(","), which writes null and undefined elements as "". */
  function JoinItems(items: seq<JsValue>): (r: string)
    ensures |items| == 1 && !items[0].Undefined? && !items[0].Null? ==> r == ToJsString(items[0])
    decreases items, 1
  {
    if items == [] then ""
    else
      var first := if items[0].Undefined? || items[0].Null? then "" else ToJsString(items[0]);
      if |items| == 1 then first else first + "," + JoinItems(items[1..])
  }

  /** The text join() writes for one element: "" for null and undefined, String(v) otherwise. */
  function ItemText(v: JsValue): (r: string)
    ensures v.Undefined? || v.Null? ==> r == ""
    ensures !v.Undefined? && !v.Null? ==> r == ToJsString(v)
  {
    if v.Undefined? || v.Null? then "" else ToJsString(v)
  }

  /** Number of commas in s. */
  function CommaCount(s: string): (n: nat)
    ensures n <= |s|
  {
    if s == [] then 0 else (if s[0] == ',' then 1 else 0) + CommaCount(s[1..])
  }

  lemma {:induction false} CommaCountAppend(a: string, b: string)
    ensures CommaCount(a + b) == CommaCount(a) + CommaCount(b)
  {
    if a == [] {
      assert a + b == b;
    } else {
      assert (a + b)[1..] == a[1..] + b;
      CommaCountAppend(a[1..], b);
    }
  }

  /** join(","): the text of the first element comes first, a comma follows it when more elements come,
      and when no element's text holds a comma the result holds exactly one comma fewer than there are
      elements, so splitting it at the commas gives the elements back one by one. */
  lemma {:induction false} JoinItemsShape(items: seq<JsValue>)
    requires items != []
    ensures var r, first := JoinItems(items), ItemText(items[0]);
            && |first| <= |r| && r[..|first|] == first
            && (|items| == 1 <==> |r| == |first|)
            && (|items| > 1 ==> r[|first|] == ',')
    ensures (forall i :: 0 <= i < |items| ==> CommaCount(ItemText(items[i])) == 0)
            ==> CommaCount(JoinItems(items)) == |items| - 1
  {
    var first := ItemText(items[0]);
    if |items| == 1 {
      assert JoinItems(items) == first;
    } else {
      var rest := JoinItems(items[1..]);
      assert JoinItems(items) == first + "," + rest;
      assert (first + "," + rest)[..|first|] == first;
      JoinItemsShape(items[1..]);
      CommaCountAppend(first, ",");
      CommaCountAppend(first + ",", rest);
      assert CommaCount(",") == 1 by {
        assert ","[1..] == [];
      }
      if forall i :: 0 <= i < |items| ==> CommaCount(ItemText(items[i])) == 0 {
        assert forall i :: 0 <= i < |items| - 1 ==> items[1..][i] == items[i + 1];
      }
    }
  }
}

=== FILE: jwt_utils.dfy ===
/** utils/jwtUtils.js: reading the user id out of the stored JSON Web Token (RFC 7519 section 3: three
    dot-separated segments, the second a base64url-encoded JSON claims object). The payload is decoded
    with atob and JSON.parse and its signature is not checked. */
module JwtUtils {
  import opened Common
  import opened JsValues
  import Base64
  import Storage

  /** JSON.parse as the caller supplies it: the parsed value, or None where it throws SyntaxError. */
  type JsonParser = string -> Option<JsValue>

  /** The index of the first occurrence of c in s. */
  function IndexOf(s: string, c: char): (r: Option<nat>)
    ensures r.Some? ==> r.value < |s| && s[r.value] == c && c !in s[..r.value]
    ensures r.None? <==> c !in s
  {
    if s == [] then None
    else if s[0] == c then Some(0)
    else match IndexOf(s[1..], c)
      case None => None
      case Some(k) =>
        assert s[..k + 1] == [s[0]] + s[1..][..k];
        Some(k + 1)
  }

  /** `s.split(".")[1]`: the text between the first and the second dot (or the end), or None
      (JavaScript's undefined) when s has no dot. */
  function SecondSegment(s: string): (r: Option<string>)
    ensures r.None? <==> '.' !in s
    ensures r.Some? ==> '.' !in r.value
  {
    match IndexOf(s, '.')
    case None => None
    case Some(i) =>
      var rest := s[i + 1..];
      match IndexOf(rest, '.')
      case None => Some(rest)
      case Some(j) => Some(rest[..j])
  }

  /** A header, payload and signature joined with dots yield the payload as second segment. */
  lemma SecondSegmentOfJoined(header: string, payload: string, signature: string)
    requires '.' !in header && '.' !in payload
    ensures SecondSegment(header + "." + payload + "." + signature) == Some(payload)
  {
    var s := header + "." + payload + "." + signature;
    var i := IndexOf(s, '.').value;
    assert s[|header|] == '.';
    var rest := s[i + 1..];
    assert rest == payload + "." + signature;
    var j := IndexOf(rest, '.').value;
    assert rest[|payload|] == '.';
    assert rest[..j] == payload;
  }

  /** atob's binary string: one character per decoded byte. */
  function BinaryString(bytes: seq<Base64.Byte>): (r: string)
    ensures |r| == |bytes|
    ensures forall i :: 0 <= i < |bytes| ==> r[i] as int == bytes[i]
  {
    seq(|bytes|, i requires 0 <= i < |bytes| => bytes[i] as char)
  }

  /** `JSON.parse(atob(segment))`, where segment is undefined when the token has no dot and atob
      then decodes the string "undefined". */
  function DecodePayload(token: string, parse: JsonParser): (r: Completion<JsValue>)
    ensures r.Threw? ==> r.error in {InvalidCharacterError, SyntaxError}
  {
    var segment := SecondSegment(token);
    var text := if segment.Some? then segment.value else "undefined";
    match Base64.Atob(text)
    case None => Threw(InvalidCharacterError)
    case Some(bytes) =>
      match parse(BinaryString(bytes))
      case None => Threw(SyntaxError)
      case Some(payload) => Returned(payload)
  }

  /** getUserIdFromToken: JavaScript null when no token is stored (or the stored token is ""),
      otherwise the `userId` property of the decoded payload. Nothing is caught: a segment that does not
      decode or parse, or a payload that is JSON null, makes it throw. */
  function GetUserIdFromToken(storage: map<string, string>, parse: JsonParser): (r: Completion<JsValue>)
    ensures Storage.TokenKey !in storage || storage[Storage.TokenKey] == "" ==> r == Returned(Null)
    ensures Storage.TokenKey in storage && storage[Storage.TokenKey] != "" ==>
      match DecodePayload(storage[Storage.TokenKey], parse)
      case Threw(e) => r == Threw(e)
      case Returned(payload) => r == GetProperty(payload, "userId")
  {
    if Storage.TokenKey !in storage || storage[Storage.TokenKey] == "" then Returned(Null)
    else
      var decoded := DecodePayload(storage[Storage.TokenKey], parse);
      if decoded.Threw? then Threw(decoded.error) else GetProperty(decoded.value, "userId")
  }

  /** A token that carries the unpadded encoding of a JSON object as its second segment yields that
      object's `userId` exactly. */
  lemma UserIdOfWellFormedToken(storage: map<string, string>, parse: JsonParser,
                                header: string, claims: seq<Base64.Byte>, signature: string, fields: map<string, JsValue>)
    requires '.' !in header
    requires Storage.TokenKey in storage && storage[Storage.TokenKey] == header + "." + Base64.Encode(claims) + "." + signature
    requires parse(BinaryString(claims)) == Some(Obj(fields))
    ensures GetUserIdFromToken(storage, parse) == Returned(if "userId" in fields then fields["userId"] else Undefined)
  {
    var segment := Base64.Encode(claims);
    SecondSegmentOfJoined(header, segment, signature);
    Base64.AtobEncode(claims);
  }

  /** A claims object without `userId` yields undefined, not null. */
  lemma MissingUserIdIsUndefined(storage: map<string, string>, parse: JsonParser,
                                 header: string, claims: seq<Base64.Byte>, signature: string, fields: map<string, JsValue>)
    requires '.' !in header && "userId" !in fields
    requires Storage.TokenKey in storage && storage[Storage.TokenKey] == header + "." + Base64.Encode(claims) + "." + signature
    requires parse(BinaryString(claims)) == Some(Obj(fields))
    ensures GetUserIdFromToken(storage, parse) == Returned(Undefined)
  {
    UserIdOfWellFormedToken(storage, parse, header, claims, signature, fields);
  }

  /** A stored token without any dot makes getUserIdFromToken throw, whatever JSON.parse does. */
  lemma DotlessTokenThrows(storage: map<string, string>, parse: JsonParser)
    requires Storage.TokenKey in storage && storage[Storage.TokenKey] != "" && '.' !in storage[Storage.TokenKey]
    ensures GetUserIdFromToken(storage, parse) == Threw(InvalidCharacterError)
  {
    Base64.AtobOfUndefinedThrows();
  }

  /** A second segment written with the URL-safe characters '-' or '_' (as base64url produces them)
      makes getUserIdFromToken throw, because atob only knows the standard alphabet. */
  lemma UrlSafeSegmentThrows(storage: map<string, string>, parse: JsonParser, header: string, segment: string, signature: string)
    requires '.' !in header && '.' !in segment && ('-' in segment || '_' in segment)
    requires Storage.TokenKey in storage && storage[Storage.TokenKey] == header + "." + segment + "." + signature
    ensures GetUserIdFromToken(storage, parse) == Threw(InvalidCharacterError)
  {
    SecondSegmentOfJoined(header, segment, signature);
    if '-' in segment {
      Base64.AtobRejectsForeignChar(segment, '-');
    } else {
      Base64.AtobRejectsForeignChar(segment, '_');
    }
  }
}

=== FILE: login.dfy ===
/** Login.jsx: the login form, the session keys it stores and the role-based landing page. */
module Login {
  import opened Common
  import opened JsValues
  import Storage

  /** The parts of the login response the handler reads. */
  datatype LoginResponse = LoginResponse(jwtToken: JsValue, roles: JsValue)

  const DashboardPath: string := "/dashboard"
  const EmployeePanelPath: string := "/employeePanel"
  const AdminPanelPath: string := "/adminPanel"

  /** The four keys a successful login writes. */
  const SessionKeys: set<string> := {Storage.UsernameKey, Storage.PasswordKey, Storage.TokenKey, Storage.RolesKey}

  /** The landing page for a role: a strict comparison with "USER", then with "EMPLOYEE", and the
      admin panel for every other value, undefined and arrays included. */
  function RouteFor(roles: JsValue): (path: string)
    ensures path == DashboardPath <==> roles == Str("USER")
    ensures path == EmployeePanelPath <==> roles == Str("EMPLOYEE")
    ensures path == AdminPanelPath <==> roles != Str("USER") && roles != Str("EMPLOYEE")
  {
    if roles == Str("USER") then DashboardPath
    else if roles == Str("EMPLOYEE") then EmployeePanelPath
    else AdminPanelPath
  }

  /** A role sent as a one-element array is stored as the same text as the plain string, yet is routed
      to the admin panel. */
  lemma ArrayRoleStoredAlikeRoutedElsewhere()
    ensures ToJsString(Arr([Str("USER")])) == ToJsString(Str("USER"))
    ensures RouteFor(Str("USER")) == DashboardPath && RouteFor(Arr([Str("USER")])) == AdminPanelPath
  {
  }

  class LoginForm {
    /** `loginData`, keyed by the inputs' `name` attributes. */
    var loginData: map<string, string>

    ghost predicate Valid()
      reads this
    {
      Storage.UsernameKey in loginData && Storage.PasswordKey in loginData
    }

    constructor ()
      ensures Valid()
      ensures loginData == map[Storage.UsernameKey := "", Storage.PasswordKey := ""]
    {
      loginData := map[Storage.UsernameKey := "", Storage.PasswordKey := ""];
    }

    /** handleChange: `{ ...loginData, [name]: value }`; every other field keeps its value. */
    method HandleChange(name: string, value: string)
      requires Valid()
      modifies this
      ensures Valid()
      ensures loginData == old(loginData)[name := value]
      ensures forall k :: k in old(loginData) && k != name ==> loginData[k] == old(loginData)[k]
    {
      loginData := loginData[name := value];
    }

    /** handleSubmit: `response` is the login call's data, None when the call fails. On success the four
        session keys are written (the password in clear text, the token and role through String()) and the
        landing page for the role is returned; on failure nothing is stored and nothing navigates. */
    method HandleSubmit(store: Storage.LocalStorage, response: Option<LoginResponse>)
      returns (navigateTo: Option<string>, notice: Notice)
      requires Valid()
      modifies store
      ensures response.None? ==>
        store.items == old(store.items) && navigateTo == None && notice == ErrorToast("Invalid username or password!")
      ensures response.Some? ==>
        && store.items == old(store.items)[Storage.UsernameKey := loginData[Storage.UsernameKey]]
                                          [Storage.PasswordKey := loginData[Storage.PasswordKey]]
                                          [Storage.TokenKey := ToJsString(response.value.jwtToken)]
                                          [Storage.RolesKey := ToJsString(response.value.roles)]
        && store.items.Keys == old(store.items).Keys + SessionKeys
        && (forall k :: k in old(store.items) && k !in SessionKeys ==> store.items[k] == old(store.items)[k])
        && navigateTo == Some(RouteFor(response.value.roles))
        && notice == SuccessToast("Login Successful!")
    {
      if response.None? {
        navigateTo := None;
        notice := ErrorToast("Invalid username or password!");
        return;
      }
      var jwtToken := response.value.jwtToken;
      var roles := response.value.roles;
      store.SetItem(Storage.UsernameKey, loginData[Storage.UsernameKey]);
      store.SetItem(Storage.PasswordKey, loginData[Storage.PasswordKey]);
      store.SetItem(Storage.TokenKey, ToJsString(jwtToken));
      store.SetItem(Storage.RolesKey, ToJsString(roles));
      notice := SuccessToast("Login Successful!");
      if roles == Str("USER") {
        navigateTo := Some(DashboardPath);
      } else if roles == Str("EMPLOYEE") {
        navigateTo := Some(EmployeePanelPath);
      } else {
        navigateTo := Some(AdminPanelPath);
      }
    }
  }
}

=== FILE: recent_complaints.dfy ===
/** RecentComplaints.jsx: the admin panel's short list of the first five complaints with a relative
    creation time. */
module RecentComplaints {
  import opened Common
  import opened JsText
  import opened Records

  /** How many complaints the panel keeps. */
  const Shown: nat := 5

  const MinuteMillis: nat := 60000
  const HourMillis: nat := 3600000
  const DayMillis: nat := 86400000

  /** getTimeAgo's answer: a relative time, or the calendar date for anything a week old or older. */
  datatype TimeAgo = Recently | MinutesAgo(minutes: int) | HoursAgo(hours: nat) | DaysAgo(days: nat) | CalendarDate(created: int)

  /** getTimeAgo. `created` is the complaint's creation time in milliseconds (None where the field is
      missing or empty) and `now` the clock. The three quotients are Math.floor of a division by a
      positive constant, which is Dafny's division; a creation time in the future gives negative minutes. */
  function GetTimeAgo(created: Option<int>, now: int): (r: TimeAgo)
    ensures created.None? <==> r == Recently
    ensures r.MinutesAgo? ==> r.minutes < 60 && r.minutes * MinuteMillis <= now - created.value < (r.minutes + 1) * MinuteMillis
    ensures r.HoursAgo? ==> 1 <= r.hours < 24 && r.hours * HourMillis <= now - created.value < (r.hours + 1) * HourMillis
    ensures r.DaysAgo? ==> 1 <= r.days < 7 && r.days * DayMillis <= now - created.value < (r.days + 1) * DayMillis
    ensures r.CalendarDate? ==> r.created == created.value && now - created.value >= 7 * DayMillis
  {
    if created.None? then Recently
    else
      var diffMs := now - created.value;
      var diffMins := diffMs / MinuteMillis;
      var diffHours := diffMs / HourMillis;
      var diffDays := diffMs / DayMillis;
      if diffMins < 60 then MinutesAgo(diffMins)
      else if diffHours < 24 then HoursAgo(diffHours)
      else if diffDays < 7 then DaysAgo(diffDays)
      else CalendarDate(created.value)
  }

  /** The unit of a relative time, from the finest to the coarsest. */
  function Coarseness(t: TimeAgo): nat
  {
    match t
    case Recently => 0
    case MinutesAgo(_) => 1
    case HoursAgo(_) => 2
    case DaysAgo(_) => 3
    case CalendarDate(_) => 4
  }

  /** An older complaint is never shown in a finer unit than a newer one. */
  lemma CoarsenessMonotone(a: int, b: int, now: int)
    requires a <= b
    ensures Coarseness(GetTimeAgo(Some(b), now)) <= Coarseness(GetTimeAgo(Some(a), now))
  {
    var older, newer := GetTimeAgo(Some(a), now), GetTimeAgo(Some(b), now);
    assert now - b <= now - a;
    if newer.HoursAgo? {
      assert now - a >= HourMillis;
    } else if newer.DaysAgo? {
      assert now - a >= DayMillis;
    } else if newer.CalendarDate? {
      assert now - a >= 7 * DayMillis;
    }
  }

  /** The badge text: "Recently" without a date, "Nm ago", "Nh ago", "Nd ago"; the calendar date is formatted by the browser's locale. */
  function TimeAgoText(t: TimeAgo): (r: Option<string>)
    ensures r.None? <==> t.CalendarDate?
    ensures t.Recently? ==> r == Some("Recently")
    ensures t.MinutesAgo? ==> r == Some(IntToString(t.minutes) + "m ago")
    ensures t.HoursAgo? ==> r == Some(NatToString(t.hours) + "h ago")
    ensures t.DaysAgo? ==> r == Some(NatToString(t.days) + "d ago")
  {
    match t
    case Recently => Some("Recently")
    case MinutesAgo(m) => Some(IntToString(m) + "m ago")
    case HoursAgo(h) => Some(NatToString(h) + "h ago")
    case DaysAgo(d) => Some(NatToString(d) + "d ago")
    case CalendarDate(_) => None
  }

  /** `res.slice(0, 5)`: the first five in the order the backend sent them. */
  function FirstFive(data: seq<Complaint>): (r: seq<Complaint>)
    ensures |r| == if |data| < Shown then |data| else Shown
    ensures r == data[..|r|]
  {
    if |data| < Shown then data else data[..Shown]
  }

  class RecentView {
    var complaints: seq<Complaint>
    var loading: bool
    var refreshCount: nat

    ghost predicate Valid()
      reads this
    {
      |complaints| <= Shown
    }

    constructor ()
      ensures Valid()
      ensures complaints == [] && loading && refreshCount == 0
    {
      complaints := [];
      loading := true;
      refreshCount := 0;
    }

    /** fetchComplaints: `response` is the list endpoint's data, None when the request fails (or its data
        cannot be sliced); failure keeps the list. */
    method FetchComplaints(response: Option<seq<Complaint>>)
      requires Valid()
      modifies this
      ensures Valid()
      ensures !loading && refreshCount == old(refreshCount)
      ensures response.Some? ==> complaints == FirstFive(response.value)
      ensures response.None? ==> complaints == old(complaints)
    {
      loading := true;
      if response.Some? {
        complaints := FirstFive(response.value);
      }
      loading := false;
    }

    /** handleRefresh: counts the refresh, then fetches again. */
    method HandleRefresh(response: Option<seq<Complaint>>)
      requires Valid()
      modifies this
      ensures Valid()
      ensures refreshCount == old(refreshCount) + 1 && !loading
      ensures response.Some? ==> complaints == FirstFive(response.value)
      ensures response.None? ==> complaints == old(complaints)
    {
      refreshCount := refreshCount + 1;
      FetchComplaints(response);
    }
  }
}

=== FILE: records.dfy ===
/** The complaint records the components receive from the backend, the fixed category list,
    and the two ways the components partition complaints by category. */
module Records {
  import opened Common

  /** One entry of a complaint's timeline. `date` is the comment's timestamp in milliseconds
      (None where the field is missing or empty). */
  datatype Comment = Comment(statusType: Option<string>, date: Option<int>)

  /** A complaint as the list endpoints return it; `statusType` and `comments` may be missing. */
  datatype Complaint = Complaint(
    complaintsId: int,
    categoryType: string,
    statusType: Option<string>,
    comments: Option<seq<Comment>>)

  /** The fixed category set every list screen fetches, in request order. */
  const Categories: seq<string> := ["Technical", "Administrative", "SERVICE"]

  /** The three category names as a set: the keys of every per-category record. */
  function CategoryKeys(): (keys: set<string>)
    ensures |keys| == 3
    ensures forall i :: 0 <= i < |Categories| ==> Categories[i] in keys
  {
    assert "Technical" != "Administrative" && "Technical" != "SERVICE" && "Administrative" != "SERVICE";
    {"Technical", "Administrative", "SERVICE"}
  }

  /** The keys a loop over all of Categories has written. */
  lemma AllCategoriesWritten()
    ensures (set j | 0 <= j < |Categories| :: Categories[j]) == CategoryKeys()
  {
    assert Categories[0] == "Technical" && Categories[1] == "Administrative" && Categories[2] == "SERVICE";
  }

  /** `CATEGORIES.forEach((cat, index) => { data[cat] = responses[index].data; })`: the response at
      index i becomes the list of category i. */
  method FillByIndex<T>(responses: seq<T>) returns (data: map<string, T>)
    requires |responses| == |Categories|
    ensures data.Keys == CategoryKeys()
    ensures forall i :: 0 <= i < |Categories| ==> data[Categories[i]] == responses[i]
  {
    data := map[];
    for i := 0 to |Categories|
      invariant data.Keys == set j | 0 <= j < i :: Categories[j]
      invariant forall j :: 0 <= j < i ==> data[Categories[j]] == responses[j]
    {
      data := data[Categories[i] := responses[i]];
    }
    AllCategoriesWritten();
  }

  /** `data.filter((c) => c.categoryType === cat)`. */
  function InCategory(data: seq<Complaint>, cat: string): (r: seq<Complaint>)
    ensures |r| <= |data|
    ensures forall c :: c in r <==> c in data && c.categoryType == cat
    ensures multiset(r) <= multiset(data)
    ensures |data| == 1 ==> r == if data[0].categoryType == cat then data else []
  {
    if data == [] then []
    else
      assert data == [data[0]] + data[1..];
      (if data[0].categoryType == cat then [data[0]] else []) + InCategory(data[1..], cat)
  }

  /** Every copy of a complaint in the category is kept, and no other complaint appears. */
  lemma {:induction false} InCategoryKeepsCopies(data: seq<Complaint>, cat: string, c: Complaint)
    ensures multiset(InCategory(data, cat))[c] == if c.categoryType == cat then multiset(data)[c] else 0
  {
    if data != [] {
      assert data == [data[0]] + data[1..];
      InCategoryKeepsCopies(data[1..], cat, c);
    }
  }

  /** Filtering a concatenation filters each part and keeps them in order; with the filter of a single
      complaint (itself or nothing) this fixes the order of the filtered list. */
  lemma {:induction false} InCategoryAppend(a: seq<Complaint>, b: seq<Complaint>, cat: string)
    ensures InCategory(a + b, cat) == InCategory(a, cat) + InCategory(b, cat)
  {
    if a == [] {
      assert a + b == b;
    } else {
      assert (a + b)[0] == a[0] && (a + b)[1..] == a[1..] + b;
      InCategoryAppend(a[1..], b, cat);
    }
  }

  /** The complaints whose category is none of the three: they appear in no group. */
  function Uncategorised(data: seq<Complaint>): (r: seq<Complaint>)
    ensures forall c :: c in r <==> c in data && c.categoryType !in Categories
  {
    if data == [] then []
    else (if data[0].categoryType !in Categories then [data[0]] else []) + Uncategorised(data[1..])
  }

  /** Every complaint lands in exactly one of the three groups or among the uncategorised ones,
      so the group sizes add up to at most the total. */
  lemma {:induction false} GroupSizes(data: seq<Complaint>)
    ensures |InCategory(data, Categories[0])| + |InCategory(data, Categories[1])|
          + |InCategory(data, Categories[2])| + |Uncategorised(data)| == |data|
  {
    if data != [] {
      GroupSizes(data[1..]);
    }
  }

  /** `categories.forEach((cat) => { grouped[cat] = res.data.filter((c) => c.categoryType === cat); })`. */
  method GroupByCategory(data: seq<Complaint>) returns (grouped: map<string, seq<Complaint>>)
    ensures grouped.Keys == CategoryKeys()
    ensures forall i :: 0 <= i < |Categories| ==> grouped[Categories[i]] == InCategory(data, Categories[i])
  {
    grouped := map[];
    for i := 0 to |Categories|
      invariant grouped.Keys == set j | 0 <= j < i :: Categories[j]
      invariant forall j :: 0 <= j < i ==> grouped[Categories[j]] == InCategory(data, Categories[j])
    {
      grouped := grouped[Categories[i] := InCategory(data, Categories[i])];
    }
    AllCategoriesWritten();
  }
}

=== FILE: reports_export.dfy ===
/** ReportsExport.jsx: the admin's report screen: filter complaints, page through the results and open
    an export download. */
module ReportsExport {
  import opened Common
  import opened JsText
  import opened Records

  const StartDateKey: string := "startDate"
  const EndDateKey: string := "endDate"
  const CategoryKey: string := "categoryType"
  const StatusKey: string := "statusType"
  const FilterKeys: set<string> := {StartDateKey, EndDateKey, CategoryKey, StatusKey}

  /** The export formats the two buttons choose. */
  const ExportTypes: set<string> := {"CSV", "PDF"}

  /** The collapsed results list shows this many rows. */
  const PageSize: nat := 6

  /** The export endpoint; the same path is used for both formats. */
  const ExportBase: string := "http://localhost:8080/api/complaint/export/csv"

  const NoFormatError: string := "Please select CSV or PDF"
  const DownloadToast: string := "\U{2705} Report download started"
  const GenerateFailedToast: string := "\U{274C} Failed to generate report"

  /** The filter record with every field empty. */
  const EmptyFilters: map<string, string> := map[StartDateKey := "", EndDateKey := "", CategoryKey := "", StatusKey := ""]

  /** `filters.x || ""`: a missing field reads as "". */
  function Field(filters: map<string, string>, key: string): (r: string)
    ensures key in filters ==> r == filters[key]
    ensures key !in filters ==> r == ""
  {
    if key in filters then filters[key] else ""
  }

  /** The query string of the export link, everything but the format. */
  function FilterQuery(filters: map<string, string>): string
  {
    "?startDate=" + Field(filters, StartDateKey) + "&endDate=" + Field(filters, EndDateKey)
      + "&categoryType=" + Field(filters, CategoryKey) + "&statusType=" + Field(filters, StatusKey)
  }

  /** The export link: the filters (not URL-encoded) and the lower-cased format. */
  function ExportUrl(filters: map<string, string>, exportType: string): (url: string)
    ensures |ExportBase| + |FilterQuery(filters)| + |ToLower(exportType)| < |url|
    ensures url[..|ExportBase|] == ExportBase
    ensures url[|ExportBase|..|ExportBase| + |FilterQuery(filters)|] == FilterQuery(filters)
    ensures url[|url| - |ToLower(exportType)|..] == ToLower(exportType)
  {
    var url := ExportBase + FilterQuery(filters) + "&exportType=" + ToLower(exportType);
    assert url[..|ExportBase|] == ExportBase;
    assert url[|ExportBase|..|ExportBase| + |FilterQuery(filters)|] == FilterQuery(filters);
    assert url[|url| - |ToLower(exportType)|..] == ToLower(exportType);
    url
  }

  /** Both formats are requested from the same path with the same filters; only the last parameter
      differs, and it carries the format in lower case. */
  lemma FormatsShareThePath(filters: map<string, string>)
    ensures var csv, pdf := ExportUrl(filters, "CSV"), ExportUrl(filters, "PDF");
      && |csv| == |pdf|
      && csv[..|csv| - 3] == pdf[..|pdf| - 3]
      && csv[|csv| - 3..] == "csv" && pdf[|pdf| - 3..] == "pdf"
      && csv[..|ExportBase|] == ExportBase
  {
    var front := ExportBase + FilterQuery(filters) + "&exportType=";
    var csv, pdf := ExportUrl(filters, "CSV"), ExportUrl(filters, "PDF");
    assert csv == front + ToLower("CSV") && pdf == front + ToLower("PDF");
    assert ToLower("CSV") == "csv" && ToLower("PDF") == "pdf";
    assert csv == front + "csv" && pdf == front + "pdf";
    assert csv[..|csv| - 3] == front;
    assert pdf[..|pdf| - 3] == front;
    assert csv[..|ExportBase|] == ExportBase;
  }

  /** `showAll ? complaints : complaints.slice(0, 6)`. */
  function VisibleComplaints(complaints: seq<Complaint>, showAll: bool): (r: seq<Complaint>)
    ensures showAll ==> r == complaints
    ensures !showAll ==> |r| == (if |complaints| < PageSize then |complaints| else PageSize) && r == complaints[..|r|]
  {
    if showAll || |complaints| < PageSize then complaints else complaints[..PageSize]
  }

  /** The "Show More (n more)" count shown under a collapsed list longer than a page. */
  function HiddenCount(complaints: seq<Complaint>): (r: nat)
    requires |complaints| > PageSize
    ensures r > 0
  {
    |complaints| - PageSize
  }

  /** A collapsed long list shows a page and announces exactly the rest. */
  lemma CollapsedPlusHiddenIsAll(complaints: seq<Complaint>)
    requires |complaints| > PageSize
    ensures |VisibleComplaints(complaints, false)| + HiddenCount(complaints) == |complaints|
    ensures VisibleComplaints(complaints, false) + complaints[|VisibleComplaints(complaints, false)|..] == complaints
  {
  }

  class ReportsView {
    var filters: map<string, string>
    var complaints: seq<Complaint>
    var showAll: bool
    var exportType: string
    var isGenerating: bool

    ghost predicate Valid()
      reads this
    {
      FilterKeys <= filters.Keys && (exportType == "" || exportType in ExportTypes)
    }

    constructor ()
      ensures Valid()
      ensures filters == EmptyFilters && complaints == [] && !showAll && exportType == "" && !isGenerating
    {
      filters := EmptyFilters;
      complaints := [];
      showAll := false;
      exportType := "";
      isGenerating := false;
    }

    /** handleChange: `{ ...filters, [name]: value }`. */
    method HandleChange(name: string, value: string)
      requires Valid()
      modifies this
      ensures Valid()
      ensures filters == old(filters)[name := value]
      ensures complaints == old(complaints) && showAll == old(showAll)
      ensures exportType == old(exportType) && isGenerating == old(isGenerating)
    {
      filters := filters[name := value];
    }

    /** clearFilters. */
    method ClearFilters()
      requires Valid()
      modifies this
      ensures Valid()
      ensures forall k :: k in FilterKeys ==> Field(filters, k) == ""
      ensures filters == EmptyFilters
      ensures complaints == old(complaints) && showAll == old(showAll)
      ensures exportType == old(exportType) && isGenerating == old(isGenerating)
    {
      filters := EmptyFilters;
    }

    /** One of the two format buttons. */
    method SetExportType(t: string)
      requires Valid() && t in ExportTypes
      modifies this
      ensures Valid()
      ensures exportType == t
      ensures filters == old(filters) && complaints == old(complaints) && showAll == old(showAll)
      ensures isGenerating == old(isGenerating)
    {
      exportType := t;
    }

    /** generateReport: the current filters are the query; on success the results replace the list and
        the list collapses; on failure the old list stays. */
    method GenerateReport(response: Option<seq<Complaint>>) returns (query: map<string, string>, notice: Notice)
      modifies this
      ensures query == old(filters)
      ensures response.Some? ==> complaints == response.value && !showAll && notice == NoNotice
      ensures response.None? ==>
        complaints == old(complaints) && showAll == old(showAll) && notice == ErrorToast(GenerateFailedToast)
      ensures !isGenerating
      ensures filters == old(filters) && exportType == old(exportType)
    {
      isGenerating := true;
      query := filters;
      if response.Some? {
        complaints := response.value;
        showAll := false;
        notice := NoNotice;
      } else {
        notice := ErrorToast(GenerateFailedToast);
      }
      isGenerating := false;
    }

    /** exportReport: without a format only an error toast; otherwise the export link is opened. */
    function ExportReport(): (r: (Option<string>, Notice))
      reads this
      ensures exportType == "" <==> r.0.None?
      ensures exportType == "" ==> r.1 == ErrorToast(NoFormatError)
      ensures exportType != "" ==> r.0 == Some(ExportUrl(filters, exportType)) && r.1 == SuccessToast(DownloadToast)
    {
      if exportType == "" then (None, ErrorToast(NoFormatError))
      else (Some(ExportUrl(filters, exportType)), SuccessToast(DownloadToast))
    }

    /** The Show More / Show Less button (rendered only for lists longer than a page). */
    method ToggleShowAll()
      requires |complaints| > PageSize
      modifies this
      ensures showAll == !old(showAll)
      ensures filters == old(filters) && complaints == old(complaints)
      ensures exportType == old(exportType) && isGenerating == old(isGenerating)
    {
      showAll := !showAll;
    }
  }
}

=== FILE: stat.dfy ===
/** Stat.jsx: the landing page's overview cards with the total, resolved and pending counts. */
module Stat {
  import opened Common
  import opened JsText
  import opened Records

  const LoadError: string := "Failed to load complaint statistics"

  /** `complaints.filter((c) => c.statusType?.toUpperCase() === wanted).length`: a missing status
      matches nothing. */
  function CountUpper(data: seq<Complaint>, wanted: string): (r: nat)
    ensures r <= |data|
    ensures r == 0 <==> forall i :: 0 <= i < |data| ==> data[i].statusType.None? || ToUpper(data[i].statusType.value) != wanted
  {
    if data == [] then 0
    else
      var last := data[|data| - 1];
      CountUpper(data[..|data| - 1], wanted)
        + (if last.statusType.Some? && ToUpper(last.statusType.value) == wanted then 1 else 0)
  }

  /** No complaint is both resolved and pending, so the two cards never add up to more than the total. */
  lemma {:induction false} ResolvedAndPendingWithinTotal(data: seq<Complaint>)
    ensures CountUpper(data, "RESOLVED") + CountUpper(data, "PENDING") <= |data|
  {
    if data != [] {
      ResolvedAndPendingWithinTotal(data[..|data| - 1]);
    }
  }

  /** What the component renders: the loading card, nothing at all after an error, or the three cards. */
  datatype Screen = LoadingScreen | NoScreen | Cards(total: nat, resolved: nat, pending: nat)

  class StatsView {
    var totalComplaints: nat
    var resolvedComplaints: nat
    var pendingComplaints: nat
    var loading: bool
    var error: Option<string>

    /** The cards never claim more resolved and pending complaints than there are complaints. */
    ghost predicate Valid()
      reads this
    {
      resolvedComplaints + pendingComplaints <= totalComplaints
    }

    constructor ()
      ensures Valid()
      ensures totalComplaints == 0 && resolvedComplaints == 0 && pendingComplaints == 0
      ensures loading && error == None
    {
      totalComplaints, resolvedComplaints, pendingComplaints := 0, 0, 0;
      loading := true;
      error := None;
    }

    /** fetchComplaintStats. `response` is None when the request fails and Some(None) when it succeeds
        with no data (`response.data || []`). Success recomputes the three counts and clears the error;
        failure keeps the counts and records the error. */
    method FetchComplaintStats(response: Option<Option<seq<Complaint>>>)
      requires Valid()
      modifies this
      ensures Valid()
      ensures !loading
      ensures response.Some? ==>
        (var data := if response.value.Some? then response.value.value else [];
         && totalComplaints == |data|
         && resolvedComplaints == CountUpper(data, "RESOLVED")
         && pendingComplaints == CountUpper(data, "PENDING")
         && error == None)
      ensures response.None? ==>
        && totalComplaints == old(totalComplaints) && resolvedComplaints == old(resolvedComplaints)
        && pendingComplaints == old(pendingComplaints) && error == Some(LoadError)
    {
      if response.None? {
        loading := false;
        error := Some(LoadError);
        return;
      }
      var complaints := if response.value.Some? then response.value.value else [];
      ResolvedAndPendingWithinTotal(complaints);
      totalComplaints := |complaints|;
      resolvedComplaints := CountUpper(complaints, "RESOLVED");
      pendingComplaints := CountUpper(complaints, "PENDING");
      loading := false;
      error := None;
    }

    /** The render: loading first, then an error hides the component, otherwise the cards. */
    function View(): (r: Screen)
      reads this
      ensures loading <==> r == LoadingScreen
      ensures r == NoScreen <==> !loading && error.Some?
      ensures r.Cards? ==> r.total == totalComplaints && r.resolved == resolvedComplaints && r.pending == pendingComplaints
    {
      if loading then LoadingScreen
      else if error.Some? then NoScreen
      else Cards(totalComplaints, resolvedComplaints, pendingComplaints)
    }
  }
}

=== FILE: statistics.dfy ===
/** Statistics.jsx: the admin statistics cards. One pass over all complaints counts four statuses and
    collects resolution times, from which the average resolution time is derived. */
module Statistics {
  import opened Common
  import opened JsText
  import opened Records

  /** Milliseconds in a day: `1000 * 60 * 60 * 24`. */
  const DayMillis: nat := 86400000

  /** The numbers behind the six cards. */
  datatype Summary = Summary(total: nat, open: nat, resolved: nat, pending: nat, inProgress: nat, avgDays: nat)

  /** How many complaints carry exactly this status. */
  function CountExact(data: seq<Complaint>, status: string): (r: nat)
    ensures r <= |data|
    ensures r == 0 <==> forall i :: 0 <= i < |data| ==> data[i].statusType != Some(status)
  {
    if data == [] then 0
    else CountExact(data[..|data| - 1], status) + (if data[|data| - 1].statusType == Some(status) then 1 else 0)
  }

  /** The two spellings the PENDING card counts. */
  predicate IsPendingSpelling(status: Option<string>)
  {
    status == Some("PENDING") || status == Some("Pending")
  }

  /** The PENDING card: `statusCounts[status]` only knows the exact key "PENDING", and the extra branch
      adds the spelling "Pending"; any other spelling is not counted. */
  function PendingCount(data: seq<Complaint>): (r: nat)
    ensures r <= |data|
    ensures r == 0 <==> forall i :: 0 <= i < |data| ==> !IsPendingSpelling(data[i].statusType)
  {
    if data == [] then 0
    else PendingCount(data[..|data| - 1]) + (if IsPendingSpelling(data[|data| - 1].statusType) then 1 else 0)
  }

  /** The card is the sum of the exact "PENDING" key and the "Pending" branch. */
  lemma {:induction false} PendingCountIsBothSpellings(data: seq<Complaint>)
    ensures PendingCount(data) == CountExact(data, "PENDING") + CountExact(data, "Pending")
  {
    if data != [] {
      PendingCountIsBothSpellings(data[..|data| - 1]);
    }
  }

  /** One more complaint raises the PENDING card by one exactly when its status is "PENDING" or
      "Pending"; "pending", "PENDING " or a missing status leave it unchanged. */
  lemma PendingStep(data: seq<Complaint>, c: Complaint)
    ensures PendingCount(data + [c])
      == PendingCount(data) + (if c.statusType == Some("PENDING") || c.statusType == Some("Pending") then 1 else 0)
  {
    assert (data + [c])[..|data|] == data;
  }

  /** `comments.find(c => c.statusType === status)`. */
  function FirstWithStatus(comments: seq<Comment>, status: string): (r: Option<Comment>)
    ensures r.Some? ==> r.value in comments && r.value.statusType == Some(status)
    ensures r.None? <==> forall i :: 0 <= i < |comments| ==> comments[i].statusType != Some(status)
  {
    if comments == [] then None
    else if comments[0].statusType == Some(status) then Some(comments[0])
    else FirstWithStatus(comments[1..], status)
  }

  /** A comment date passes `comment.date &&` when it is present and not the falsy 0. */
  predicate DateTruthy(d: Option<int>)
  {
    d.Some? && d.value != 0
  }

  /** `Math.abs(a - b)`. */
  function Distance(a: int, b: int): (r: nat)
    ensures r == a - b || r == b - a
  {
    if a >= b then a - b else b - a
  }

  /** `Math.ceil(x / d)` for a non-negative x. */
  function CeilDiv(x: nat, d: nat): (r: nat)
    requires d > 0
    ensures (r - 1) * d < x <= r * d
  {
    (x + d - 1) / d
  }

  /** The days a complaint contributes to the average: only a complaint whose status is exactly
      "Resolved", that has comments, whose first "Open" and first "Resolved" comments both carry a
      truthy date, and whose whole-day distance (rounded up) is positive. */
  function ResolutionDays(c: Complaint): (r: Option<nat>)
    ensures r.Some? ==> r.value > 0 && c.statusType == Some("Resolved")
  {
    if c.statusType == Some("Resolved") && c.comments.Some? && |c.comments.value| > 0 then
      var openComment := FirstWithStatus(c.comments.value, "Open");
      var resolvedComment := FirstWithStatus(c.comments.value, "Resolved");
      if openComment.Some? && resolvedComment.Some?
         && DateTruthy(openComment.value.date) && DateTruthy(resolvedComment.value.date) then
        var days := CeilDiv(Distance(resolvedComment.value.date.value, openComment.value.date.value), DayMillis);
        if days > 0 then Some(days) else None
      else None
    else None
  }

  /** Exactly when a complaint contributes, and what: it is "Resolved", has comments, its first "Open"
      and first "Resolved" comments carry truthy dates, and those dates differ; the contribution is the
      distance between the two dates in whole days, rounded up. */
  lemma ResolutionDaysExactly(c: Complaint)
    ensures ResolutionDays(c).Some? <==>
      && c.statusType == Some("Resolved") && c.comments.Some?
      && var open, resolved := FirstWithStatus(c.comments.value, "Open"), FirstWithStatus(c.comments.value, "Resolved");
         && open.Some? && resolved.Some? && DateTruthy(open.value.date) && DateTruthy(resolved.value.date)
         && open.value.date.value != resolved.value.date.value
    ensures ResolutionDays(c).Some? ==>
      var open, resolved := FirstWithStatus(c.comments.value, "Open").value, FirstWithStatus(c.comments.value, "Resolved").value;
      var gap := Distance(resolved.date.value, open.date.value);
      var days := ResolutionDays(c).value;
      (days - 1) * DayMillis < gap <= days * DayMillis
  {
    if c.statusType == Some("Resolved") && c.comments.Some? {
      var open, resolved := FirstWithStatus(c.comments.value, "Open"), FirstWithStatus(c.comments.value, "Resolved");
      if open.Some? && resolved.Some? && DateTruthy(open.value.date) && DateTruthy(resolved.value.date) {
        var gap := Distance(resolved.value.date.value, open.value.date.value);
        var days := CeilDiv(gap, DayMillis);
        assert days > 0 <==> gap > 0;
      }
    }
  }

  /** `resolutionTimes` after the pass over `data`, in complaint order. */
  function ResolutionTimes(data: seq<Complaint>): (r: seq<nat>)
    ensures |r| <= CountExact(data, "Resolved")
    ensures forall i :: 0 <= i < |r| ==> r[i] > 0
  {
    if data == [] then []
    else
      var rest := ResolutionTimes(data[..|data| - 1]);
      var days := ResolutionDays(data[|data| - 1]);
      if days.Some? then rest + [days.value] else rest
  }

  function Sum(times: seq<nat>): nat
  {
    if times == [] then 0 else Sum(times[..|times| - 1]) + times[|times| - 1]
  }

  /** Every recorded time is at least one day, so the total is at least the number of times. */
  lemma {:induction false} SumAtLeastCount(times: seq<nat>)
    requires forall i :: 0 <= i < |times| ==> times[i] > 0
    ensures Sum(times) >= |times|
  {
    if times != [] {
      SumAtLeastCount(times[..|times| - 1]);
    }
  }

  /** `Math.round(sum / n)`: the nearest whole number, halves rounded up. */
  function RoundedAverage(sum: nat, n: nat): (r: nat)
    requires n > 0
    ensures 2 * n * r <= 2 * sum + n < 2 * n * (r + 1)
  {
    (2 * sum + n) / (2 * n)
  }

  /** `avgResolutionTime`: 0 without resolution times, their rounded mean otherwise. */
  function AverageDays(times: seq<nat>): nat
  {
    if |times| > 0 then RoundedAverage(Sum(times), |times|) else 0
  }

  /** A mean of whole days that are each at least one rounds to at least one. */
  lemma RoundedAverageAtLeastOne(sum: nat, n: nat)
    requires n > 0 && sum >= n
    ensures RoundedAverage(sum, n) >= 1
  {
  }

  /** The average is 0 exactly when no complaint contributed a resolution time. */
  lemma AverageZeroIffNoTimes(data: seq<Complaint>)
    ensures AverageDays(ResolutionTimes(data)) == 0 <==> ResolutionTimes(data) == []
  {
    var times := ResolutionTimes(data);
    if times != [] {
      SumAtLeastCount(times);
      RoundedAverageAtLeastOne(Sum(times), |times|);
    }
  }

  /** The card text of the average: "N Day" for one day, "N Days" above, "N/A" for no average. */
  function AverageText(avg: nat): (r: string)
    ensures avg == 0 <==> r == "N/A"
    ensures avg > 0 ==> |NatToString(avg)| < |r| && r[..|NatToString(avg)|] == NatToString(avg)
    ensures avg > 0 ==> (r[|r| - 1] == 's' <==> avg > 1)
    ensures avg > 0 ==> |r| == |NatToString(avg)| + 4 + (if avg > 1 then 1 else 0)
    ensures avg > 0 ==> r[|NatToString(avg)|..|NatToString(avg)| + 4] == " Day"
  {
    if avg > 0 then
      var r := NatToString(avg) + " Day" + (if avg > 1 then "s" else "");
      assert r[..|NatToString(avg)|] == NatToString(avg);
      assert r[|NatToString(avg)|..|NatToString(avg)| + 4] == " Day";
      r
    else "N/A"
  }

  /** The four status cards never count more complaints than there are. */
  lemma {:induction false} StatusCountsWithinTotal(data: seq<Complaint>)
    ensures CountExact(data, "Open") + CountExact(data, "Resolved") + PendingCount(data)
      + CountExact(data, "InProgress") <= |data|
  {
    if data != [] {
      StatusCountsWithinTotal(data[..|data| - 1]);
    }
  }

  /** What one more complaint adds to a status counter. */
  lemma CountStep(complaints: seq<Complaint>, i: nat, status: string)
    requires i < |complaints|
    ensures CountExact(complaints[..i + 1], status)
      == CountExact(complaints[..i], status) + (if complaints[i].statusType == Some(status) then 1 else 0)
  {
    assert complaints[..i + 1][..i] == complaints[..i];
  }

  /** What one more complaint adds to the PENDING card. */
  lemma PendingPrefixStep(complaints: seq<Complaint>, i: nat)
    requires i < |complaints|
    ensures PendingCount(complaints[..i + 1]) == PendingCount(complaints[..i])
      + (if complaints[i].statusType == Some("PENDING") || complaints[i].statusType == Some("Pending") then 1 else 0)
  {
    assert complaints[..i + 1] == complaints[..i] + [complaints[i]];
    PendingStep(complaints[..i], complaints[i]);
  }

  /** What one more complaint adds to the resolution times. */
  lemma TimesStep(complaints: seq<Complaint>, i: nat)
    requires i < |complaints|
    ensures ResolutionTimes(complaints[..i + 1])
      == ResolutionTimes(complaints[..i]) + (match ResolutionDays(complaints[i]) case Some(d) => [d] case None => [])
  {
    assert complaints[..i + 1][..i] == complaints[..i];
  }

  /** calculateStatistics: the forEach pass updates the counters and pushes resolution times; the
      average is taken afterwards. */
  method CalculateStatistics(complaints: seq<Complaint>) returns (s: Summary)
    ensures s.total == |complaints|
    ensures s.open == CountExact(complaints, "Open") && s.resolved == CountExact(complaints, "Resolved")
    ensures s.pending == PendingCount(complaints) && s.inProgress == CountExact(complaints, "InProgress")
    ensures s.avgDays == AverageDays(ResolutionTimes(complaints))
  {
    var open, resolved, pending, inProgress := 0, 0, 0, 0;
    var resolutionTimes: seq<nat> := [];
    for i := 0 to |complaints|
      invariant open == CountExact(complaints[..i], "Open")
      invariant resolved == CountExact(complaints[..i], "Resolved")
      invariant pending == PendingCount(complaints[..i])
      invariant inProgress == CountExact(complaints[..i], "InProgress")
      invariant resolutionTimes == ResolutionTimes(complaints[..i])
    {
      CountStep(complaints, i, "Open");
      CountStep(complaints, i, "Resolved");
      PendingPrefixStep(complaints, i);
      CountStep(complaints, i, "InProgress");
      TimesStep(complaints, i);
      var status := complaints[i].statusType;
      if status == Some("Open") {
        open := open + 1;
      } else if status == Some("Resolved") {
        resolved := resolved + 1;
      } else if status == Some("PENDING") {
        pending := pending + 1;
      } else if status == Some("InProgress") {
        inProgress := inProgress + 1;
      } else if status == Some("Pending") {
        pending := pending + 1;
      }
      var days := ResolutionDays(complaints[i]);
      if days.Some? {
        resolutionTimes := resolutionTimes + [days.value];
      }
    }
    assert complaints[..|complaints|] == complaints;
    var avg := 0;
    if |resolutionTimes| > 0 {
      avg := RoundedAverage(Sum(resolutionTimes), |resolutionTimes|);
    }
    s := Summary(|complaints|, open, resolved, pending, inProgress, avg);
  }

  class StatisticsView {
    /** None while the cards still hold their initial "0" placeholders. */
    var summary: Option<Summary>
    var cardsLoading: bool
    var loading: bool

    constructor ()
      ensures summary == None && cardsLoading && loading
    {
      summary := None;
      cardsLoading := true;
      loading := true;
    }

    /** fetchComplaintsData (also what the refresh button runs). `response` is None when the request
        fails and Some(None) when it returns no data: then reading `complaints.length` throws, which the
        same catch handles. Either failure keeps the previous numbers and only stops the card spinners. */
    method FetchComplaintsData(response: Option<Option<seq<Complaint>>>)
      modifies this
      ensures !loading && !cardsLoading
      ensures response.Some? && response.value.Some? ==>
        (var data := response.value.value;
         && summary.Some?
         && summary.value.total == |data|
         && summary.value.open == CountExact(data, "Open")
         && summary.value.resolved == CountExact(data, "Resolved")
         && summary.value.pending == PendingCount(data)
         && summary.value.inProgress == CountExact(data, "InProgress")
         && summary.value.avgDays == AverageDays(ResolutionTimes(data)))
      ensures response.None? || response.value.None? ==> summary == old(summary)
    {
      if response.Some? && response.value.Some? {
        var s := CalculateStatistics(response.value.value);
        summary := Some(s);
      }
      cardsLoading := false;
      loading := false;
    }
  }
}

=== FILE: status_display.dfy ===
/** The colour and icon switches the admin and employee screens share. Each component carries its own
    copy of them (ComplaintStatus.jsx, ChangeStatus.jsx, AssignedComplaints.jsx, EscalateComplaints.jsx,
    RecentComplaints.jsx); the copies agree, so they are defined once here. The status switches
    lower-case their argument first; the category switch compares exactly. */
module StatusDisplay {
  import opened Common
  import opened JsText

  const DefaultColor: string := "#718096"
  const DefaultStatusIcon: string := "\U{1F4CA}"
  const DefaultCategoryIcon: string := "\U{1F4C4}"

  /** The lower-case labels of the status switches. */
  const KnownStatuses: set<string> := {"pending", "inprogress", "resolved", "open", "escalated"}

  /** The labels of the urgency switch. */
  const KnownUrgencies: set<string> := {"high", "medium", "low"}

  /** `switch (status?.toLowerCase())` choosing a colour; null, undefined and unknown names get the grey default. */
  function StatusColor(status: Option<string>): (r: string)
    ensures r == DefaultColor <==> status.None? || ToLower(status.value) !in KnownStatuses
  {
    if status.None? then DefaultColor
    else
      match ToLower(status.value)
      case "pending" => "#d69e2e"
      case "inprogress" => "#ed8936"
      case "resolved" => "#38a169"
      case "open" => "#4299e1"
      case "escalated" => "#9f7aea"
      case _ => DefaultColor
  }

  /** `switch (status?.toLowerCase())` choosing an icon. */
  function StatusIcon(status: Option<string>): (r: string)
    ensures r == DefaultStatusIcon <==> status.None? || ToLower(status.value) !in KnownStatuses
  {
    if status.None? then DefaultStatusIcon
    else
      match ToLower(status.value)
      case "pending" => "\U{23F3}"
      case "inprogress" => "\U{26A1}"
      case "resolved" => "\U{2705}"
      case "open" => "\U{1F4C4}"
      case "escalated" => "\U{1F6A8}"
      case _ => DefaultStatusIcon
  }

  /** `switch (urgency?.toLowerCase())` choosing a badge colour. */
  function UrgencyColor(urgency: Option<string>): (r: string)
    ensures r == DefaultColor <==> urgency.None? || ToLower(urgency.value) !in KnownUrgencies
  {
    if urgency.None? then DefaultColor
    else
      match ToLower(urgency.value)
      case "high" => "#f56565"
      case "medium" => "#ed8936"
      case "low" => "#48bb78"
      case _ => DefaultColor
  }

  /** `switch (category)`: an exact, case-sensitive comparison. */
  function CategoryIcon(category: string): (r: string)
    ensures r == DefaultCategoryIcon <==> category !in {"Technical", "Administrative", "SERVICE"}
  {
    match category
    case "Technical" => "\U{1F527}"
    case "Administrative" => "\U{1F4CB}"
    case "SERVICE" => "\U{1F6E0}\U{FE0F}"
    case _ => DefaultCategoryIcon
  }

  /** The status lookups ignore case: any two spellings that lower-case alike get the same colour and icon. */
  lemma StatusLookupIgnoresCase(s: string, t: string)
    requires SameIgnoringCase(s, t)
    ensures StatusColor(Some(s)) == StatusColor(Some(t))
    ensures StatusIcon(Some(s)) == StatusIcon(Some(t))
  {
  }
}

=== FILE: storage.dfy ===
/** The browser's localStorage: a string-to-string map shared by every component. */
module Storage {
  import opened Common

  const UsernameKey: string := "username"
  const PasswordKey: string := "password"
  const TokenKey: string := "jwtToken"
  const RolesKey: string := "roles"

  class LocalStorage {
    var items: map<string, string>

    constructor (initial: map<string, string>)
      ensures items == initial
    {
      items := initial;
    }

    /** getItem: the stored string, or None where the browser returns null. */
    function GetItem(key: string): (r: Option<string>)
      reads this
      ensures r.Some? <==> key in items
      ensures r.Some? ==> r.value == items[key]
    {
      if key in items then Some(items[key]) else None
    }

    method SetItem(key: string, value: string)
      modifies this
      ensures items == old(items)[key := value]
    {
      items := items[key := value];
    }

    method RemoveItem(key: string)
      modifies this
      ensures items == old(items) - {key}
    {
      items := items - {key};
    }
  }
}

=== FILE: update_status.dfy ===
/** UpdateStatus.jsx: the employee's dialog that posts a comment with a new status. Its colour and icon
    lookups compare the status exactly against its four options. */
module UpdateStatus {
  import opened Common
  import opened JsText
  import opened JsValues
  import JwtUtils

  /** One entry of `statusOptions`. */
  datatype StatusOption = StatusOption(value: string, caption: string, color: string, icon: string)

  const StatusOptions: seq<StatusOption> := [
    StatusOption("PENDING", "Pending", "#FF9800", "\U{23F3}"),
    StatusOption("InProgress", "In Progress", "#2196F3", "\U{2699}\U{FE0F}"),
    StatusOption("Resolved", "Resolved", "#4CAF50", "\U{2705}"),
    StatusOption("Open", "Open", "#9C27B0", "\U{1F4C2}")
  ]

  const OptionValues: set<string> := {"PENDING", "InProgress", "Resolved", "Open"}
  const FallbackColor: string := "#666"
  const FallbackIcon: string := "\U{1F4DD}"

  /** The longest comment the textarea accepts. */
  const MaxCommentLength: nat := 500

  /** `statusOptions.find(s => s.value === status)`: the first option with exactly that value. */
  function Find(options: seq<StatusOption>, status: string): (r: Option<StatusOption>)
    ensures r.None? <==> forall i :: 0 <= i < |options| ==> options[i].value != status
    ensures r.Some? ==> r.value in options && r.value.value == status
    ensures r.Some? && options != [] && options[0].value == status ==> r.value == options[0]
    ensures r.Some? ==> exists i :: 0 <= i < |options| && r.value == options[i]
                                     && forall j :: 0 <= j < i ==> options[j].value != status
  {
    if options == [] then None
    else if options[0].value == status then Some(options[0])
    else
      var found := Find(options[1..], status);
      assert found.Some? ==> exists i :: 0 <= i < |options| && found.value == options[i]
                                          && forall j :: 0 <= j < i ==> options[j].value != status by {
        if found.Some? {
          var k :| 0 <= k < |options[1..]| && found.value == options[1..][k]
                   && forall j :: 0 <= j < k ==> options[1..][j].value != status;
          assert found.value == options[k + 1];
          assert forall j :: 0 <= j < k + 1 ==> options[j].value != status by {
            forall j | 0 <= j < k + 1 ensures options[j].value != status {
              if j > 0 { assert options[j] == options[1..][j - 1]; }
            }
          }
        }
      }
      found
  }

  /** getStatusColor: the option's colour for one of the four exact values, "#666" for anything else. */
  function StatusColor(status: string): (r: string)
    ensures status !in OptionValues <==> r == FallbackColor
    ensures forall i :: 0 <= i < |StatusOptions| && StatusOptions[i].value == status ==> r == StatusOptions[i].color
  {
    var found := Find(StatusOptions, status);
    if found.Some? then found.value.color else FallbackColor
  }

  /** getStatusIcon: the option's icon for one of the four exact values, the memo icon for anything else. */
  function StatusIcon(status: string): (r: string)
    ensures status !in OptionValues <==> r == FallbackIcon
    ensures forall i :: 0 <= i < |StatusOptions| && StatusOptions[i].value == status ==> r == StatusOptions[i].icon
  {
    var found := Find(StatusOptions, status);
    if found.Some? then found.value.icon else FallbackIcon
  }

  /** The parameters of the add-comment request: the user id goes into the path through String(). */
  datatype CommentRequest = CommentRequest(complaintsId: int, userIdText: string, desc: string, statusType: string)

  class UpdateStatusDialog {
    const complaintsId: int
    var statusType: string
    var comment: string
    var loading: bool
    var error: string

    ghost predicate Valid()
      reads this
    {
      |comment| <= MaxCommentLength
    }

    /** The dialog opens with no status chosen and an empty comment. */
    constructor (complaintsId: int)
      ensures Valid()
      ensures this.complaintsId == complaintsId
      ensures statusType == "" && comment == "" && !loading && error == ""
      ensures SubmitDisabled()
    {
      this.complaintsId := complaintsId;
      statusType := "";
      comment := "";
      loading := false;
      error := "";
    }

    /** One of the status buttons. */
    method ChooseStatus(value: string)
      requires value in OptionValues
      modifies this
      ensures statusType == value
      ensures comment == old(comment) && loading == old(loading) && error == old(error)
    {
      statusType := value;
    }

    /** The textarea's onChange: a value of at most 500 characters replaces the comment and clears the
        error; a longer one is ignored. */
    method OnCommentChange(value: string)
      requires Valid()
      modifies this
      ensures Valid()
      ensures |value| <= MaxCommentLength ==> comment == value && error == ""
      ensures |value| > MaxCommentLength ==> comment == old(comment) && error == old(error)
      ensures statusType == old(statusType) && loading == old(loading)
    {
      if |value| <= MaxCommentLength {
        comment := value;
        error := "";
      }
    }

    /** `disabled={loading || !statusType || !comment.trim()}` on the submit button. */
    function SubmitDisabled(): (r: bool)
      reads this
      ensures r <==> loading || statusType == "" || AllSpace(comment)
    {
      BlankIffAllSpace(comment);
      loading || statusType == "" || IsBlank(comment)
    }

    /** handleSubmit. With no status or a blank comment only the error message is set. Otherwise the
        user id is read with getUserIdFromToken inside the try, so a token that makes it throw ends in the
        catch like a failed request. On success the dialog closes; on failure it stays open with an error. */
    method HandleSubmit(storage: map<string, string>, parse: JwtUtils.JsonParser, posted: bool)
      returns (request: Option<CommentRequest>, closed: bool, notice: Notice)
      requires Valid()
      modifies this
      ensures Valid()
      ensures statusType == old(statusType) && comment == old(comment)
      ensures old(statusType) == "" || IsBlank(old(comment)) ==>
        && request == None && !closed && notice == NoNotice
        && error == "Please select a status and write a comment" && loading == old(loading)
      ensures old(statusType) != "" && !IsBlank(old(comment)) ==>
        && !loading
        && request == (var uid := JwtUtils.GetUserIdFromToken(storage, parse);
                       if uid.Threw? then None
                       else Some(CommentRequest(complaintsId, ToJsString(uid.value), old(comment), old(statusType))))
        && (closed <==> request.Some? && posted)
        && (closed ==> error == "" && notice == SuccessToast("Comment and status updated successfully"))
        && (!closed ==> error == "Failed to update status. Please try again." && notice == NoNotice)
    {
      if statusType == "" || IsBlank(comment) {
        error := "Please select a status and write a comment";
        request, closed, notice := None, false, NoNotice;
        return;
      }
      error := "";
      loading := true;
      var uid := JwtUtils.GetUserIdFromToken(storage, parse);
      if uid.Threw? {
        request := None;
      } else {
        request := Some(CommentRequest(complaintsId, ToJsString(uid.value), comment, statusType));
      }
      if request.Some? && posted {
        loading := false;
        notice := SuccessToast("Comment and status updated successfully");
        closed := true;
      } else {
        error := "Failed to update status. Please try again.";
        loading := false;
        notice := NoNotice;
        closed := false;
      }
    }
  }

  /** Unlike the shared case-insensitive lookups, this dialog's colour lookup is case-sensitive: "pending"
      falls back to "#666" while "PENDING" has its own colour. */
  lemma ColourLookupIsCaseSensitive()
    ensures StatusColor("PENDING") == "#FF9800"
    ensures StatusColor("pending") == FallbackColor
  {
    assert StatusOptions[0].value == "PENDING";
  }
}
